=== FILE: README.md ===
# Talkit dialogue editor: connection rules, Branch ports and the game-data compiler

Talkit is a browser editor for branching game dialogue. The writer places
elements of six kinds on a graph and joins their ports with links:

- three line kinds, `StartingText`, `Text` and `Node`;
- `Choice`, a player option;
- `Set`, which assigns a variable;
- `Branch`, which switches on a variable's value.

The editor then exports a flat JSON script for a game engine.

This project models, in Dafny, the logic at the heart of `src/dialogger.js`:

- **The connection policy.** The adjacency table `allowableConnections`, and
  the paper's two validators: `validateConnection` checks a proposed link
  end to end, and `validateMagnet` decides whether a port may start another
  link, using the `unlimitedConnections` attribute.
- **Per-kind defaults.** The default ports and fields each element type is
  created with, and `add`, which puts a new element on the graph.
- **Branch ports.** The `+` and `-` buttons of a Branch (`addPort`,
  `removePort`), which keep port `output<k>` and value slot `values[k-1]` in
  lockstep.
- **The compiler `gameData`.** A first pass emits one record per element and
  indexes it by id. A second pass folds every link into its source's record:
  - a Branch link writes `branches[key]`;
  - a line's link to a Choice appends to `choices`; the first such link
    also deletes `next`;
  - any other link overwrites `next`;
  - a link whose source id is unknown is ignored.
- **`gameFilenameFromNormalFilename`**, the name offered for the exported
  game file.

The graph is a sequence of cells (`Registry.Cell`), in the order the graph
lists them. Each cell is an element (`NodeCell`, the JSON attribute bag the
compiler reads) or a link (`LinkCell`, whose target is absent while it
dangles). The compiled record (`Compiler.ScriptNode`) keeps JavaScript's
distinctions that the game sees:

- `next` can be absent (deleted), `null`, or an id (`Next = Absent | Null | To`);
- `choices` and `branches` are present or not;
- a `branches` key is `_default`, a configured value (possibly `null`), or
  `undefined`. `undefined` is what a port beyond the value list reads
  (`BranchKey = DefaultKey | ValueKey | MissingKey`).

`parseInt(port.slice(6))` is modelled as reading the leading decimal digits
(`Decimal.ParseInt`). Without them it gives NaN, which is `None` here.

Modules:

| file | module | contents |
|---|---|---|
| `wrappers.dfy` | `Wrappers` | `Option` |
| `registry.dfy` | `Registry` | kinds, port defaults, cells, `getCell` |
| `decimal.dfy` | `Decimal` | decimal rendering and `parseInt` |
| `policy.dfy` | `Policy` | the adjacency table and the two validators |
| `editor.dfy` | `Editor` | adding elements and drawing links; the port discipline those two edits keep |
| `branch_ports.dfy` | `BranchPorts` | `addPort` and `removePort` |
| `compiler.dfy` | `Compiler` | `gameData` |
| `compiler_proofs.dfy` | `CompilerProofs` | per-record characterizations of the output |
| `scenarios.dfy` | `Scenarios` | small graphs worked end to end |
| `filenames.dfy` | `Filenames` | the game file name |

## Model

| member | source | states |
|---|---|---|
| Registry.AllNodesListsEveryKindOnce | src/dialogger.js:33-40 | `allNodes` lists each of the six element types exactly once |
| Registry.UnlimitedConnections | src/dialogger.js:248-260 | only the out-ports of StartingText, Text and Node declare `unlimitedConnections`, and the list they declare holds exactly `dialogue.Choice` (the same attribute appears at lines 364-366 and 385-388) |
| Registry.DefaultCell | src/dialogger.js:248-534 | every new element has the declared defaults of its type: StartingText (248-260) no in-ports; Branch (418-429) out-port `output0` and no values; every other type in-port `input` and out-port `output`; an empty actor only for Text (376-392), an empty title only for Choice (398-411), an empty value only for Set (522-534); an empty name for all |
| Registry.FindNode | src/dialogger.js:87 | `graph.getCell(id)` returns an element with that id, and finds nothing exactly when no element has it |
| Policy.AllowableConnections | src/dialogger.js:42-49 | the three line kinds' rows list every kind; the Choice, Set and Branch rows list every kind but Choice |
| Policy.Filter | src/dialogger.js:46-48 | `filter` keeps exactly the members that pass the test, never lengthening the list |
| Policy.CanConnectRule | src/dialogger.js:42-49 | `CanConnect`, the lookup `allowableConnections[sourceType].includes(targetType)` of line 69, holds exactly when the target is not a Choice or the source is a line kind |
| Policy.CanConnectExamples | src/dialogger.js:42-49 | no Choice→Choice; StartingText and Text may reach a Choice; Set and Branch may not; Set→Node is allowed |
| Policy.ValidateConnection | src/dialogger.js:51-70 | a link is accepted exactly when it joins two different elements, ends on a passive (input) port, and the table allows the pair |
| Policy.FirstOutgoing | src/dialogger.js:78-84 | finds the first link in graph order that leaves the given port, and finds none exactly when no link leaves it |
| Policy.TargetKindOfElement | src/dialogger.js:86-88 | a link has a target kind exactly when its target id is non-empty and names an element of the graph, and the kind is that element's type |
| Policy.ValidateMagnet | src/dialogger.js:72-96 | a passive port never starts a link; an active port with no outgoing link always may |
| Policy.ValidateMagnetFirstLink | src/dialogger.js:79-92 | when the port has links, only the first one matters: the port must declare `unlimitedConnections` and that link must end at an element of a listed type |
| Policy.ValidateMagnetByKind | src/dialogger.js:72-96 | per kind: a port of a Choice, Set or Branch starts a link only while it has none; a line's port does so also when its first link ends at a Choice |
| Editor.AddElement | src/dialogger.js:758-770 | adding a new element makes its id find the default cell of its kind, leaves every other id's lookup unchanged, and appends to the graph |
| Editor.Connect | src/dialogger.js:786-787 | the paper admits a link only between ports the two elements declare; the admitted graph is the old one with one cell appended |
| Editor.ConnectAdmits | src/dialogger.js:779-790 | a link the paper admits is appended to the graph, runs from a declared out-port to a declared in-port of a different element, and is allowed by the table |
| Editor.ConnectFreePort | src/dialogger.js:72-96 | a free declared out-port admits a link exactly when the target is a declared in-port of another element that the table allows; an occupied port of a non-line element admits none |
| Editor.ConnectBusyLinePort | src/dialogger.js:79-92 | a line's occupied out-port admits another link exactly when its first link ends at a Choice, the ports are declared, and the table allows the new target |
| Editor.NoLinkIntoStartingText | src/dialogger.js:248-260 | an element without in-ports, a StartingText in particular (line 252), is never the target of an admitted link |
| Editor.ConnectKeepsPortDiscipline | src/dialogger.js:72-96 | drawing a link the validators admit keeps the port discipline (two links share a source port only if the element is a line and the port's first link ends at a Choice) |
| Editor.AddElementKeepsPortDiscipline | src/dialogger.js:758-770 | placing an element with a fresh id keeps the port discipline |
| Decimal.NatToString | src/dialogger.js:462 | `toString` gives a non-empty digit string that reads back as the number, with no leading zero, and `0` gives `"0"` (the suffix of the default port `output0`, line 424) |
| Decimal.ParseInt | src/dialogger.js:611 | `parseInt` gives NaN exactly when the text does not start with a digit |
| Decimal.ParseIntRoundTrip | src/dialogger.js:611 | `parseInt` of a rendered number, followed by anything that does not start with a digit, gives the number back |
| BranchPorts.AddPort | src/dialogger.js:460-468 | `+` always appends port `output<n>`, n the current port count (line 462), and a `null` value; keeps every earlier port and value, changes nothing else, and keeps the lockstep |
| BranchPorts.RemovePort | src/dialogger.js:448-458 | `-` drops the last port and value unless only the default port is left, changes nothing else, and keeps the lockstep |
| BranchPorts.DefaultBranchInLockstep | src/dialogger.js:418-429 | a new Branch is in lockstep: port `output0` and no values |
| BranchPorts.RemoveAfterAdd | src/dialogger.js:448-468 | `-` right after `+` restores the element |
| BranchPorts.PressesKeepLockstep | src/dialogger.js:442-468 | any sequence of `+` and `-` presses on a new Branch leaves it in lockstep |
| BranchPorts.PortNumberOfLockstepPort | src/dialogger.js:611 | in lockstep, the port name after `output` parses to the port's position |
| Compiler.ElementsOfAppend | src/dialogger.js:570-572 | the elements of a joined graph are the elements of its first part followed by those of its second, so graph order is kept |
| Compiler.ElementsAreTheElementCells | src/dialogger.js:570-572 | the first pass visits exactly the element cells of the graph |
| Compiler.IndexById | src/dialogger.js:600 | `nodesByID` maps every id in use, and only those, to the last element that carries it |
| Compiler.InitialBranches | src/dialogger.js:581-585 | a Branch's first table has exactly its configured values as keys, each mapped to `null`, with no `_default` entry |
| Compiler.Emit | src/dialogger.js:573-598 | the first-pass record copies type, id, actor and title and has no `choices`; a Branch gets `variable`, the initial `branches` and no `next`; a Set gets `variable`, `value` and a `null` `next`; every other kind gets `name` and a `null` `next` |
| Compiler.EmittedIsUnique | src/dialogger.js:573-598 | those per-kind facts determine the record completely |
| Compiler.BranchKeyForPortNumber | src/dialogger.js:611-617 | a Branch link's key is `_default` exactly when the port number parses to 0, `values[k-1]` exactly when it parses to k with 1 ≤ k ≤ the number of values, and `undefined` when it is NaN or past the values |
| Compiler.Step | src/dialogger.js:610-631 | one link changes only the source record's `next`, `choices` or `branches` |
| Compiler.SecondPass | src/dialogger.js:604-634 | the second pass changes no record's fields other than `next`, `choices` and `branches` |
| Compiler.FirstPass | src/dialogger.js:570-603 | the first pass emits one record per element, in graph order, each with the per-kind fields of lines 573-598 |
| Compiler.GameData | src/dialogger.js:565-636 | one output record per element; `nodesByID` indexes the last element per id; every field outside `next`, `choices` and `branches` is the first-pass value |
| CompilerProofs.SecondPassPerNode | src/dialogger.js:604-634 | record `i` after the second pass is its first-pass record folded over exactly the links that leave element `i` |
| CompilerProofs.NodeFoldWithoutLinks | src/dialogger.js:604-634 | a record no link leaves is left as the first pass emitted it |
| CompilerProofs.BranchFold | src/dialogger.js:610-618 | over a Branch's links: the keys are the initial ones plus every key a link selects; the last link per key decides its entry; untouched keys keep their value |
| CompilerProofs.LineFold | src/dialogger.js:619-631 | over a record's links: `choices` exists iff some link from a line reaches a Choice, and lists those Choices in link order; `next` is deleted unless a later plain link set it; the last plain link decides `next` |
| CompilerProofs.GameDataPerNode | src/dialogger.js:565-636 | output record `i` is element `i`'s first-pass record folded over the links from it |
| CompilerProofs.GameDataFields | src/dialogger.js:573-598 | each record carries its element's type, id, actor and title; Branch and Set export `variable` (Set also `value`); the other kinds export `name` |
| CompilerProofs.GameDataBranch | src/dialogger.js:610-618 | a Branch record has no `next` or `choices`; its keys are the configured values plus the keys links select; `_default` appears only if a link leaves port 0; the last link per key wins; an unlinked value stays `null` |
| CompilerProofs.GameDataNext | src/dialogger.js:619-631 | for every other kind: `choices` exists iff a line links to a Choice, listing the targets in order; `next` is absent after Choice links with no later plain link; otherwise it is the last plain link's target; it is `null` when no link leaves |
| CompilerProofs.GameDataShadowedElement | src/dialogger.js:600-601 | of two elements sharing an id, the earlier one receives no links and its output record is its first-pass record |
| CompilerProofs.UnknownSourceIgnored | src/dialogger.js:607-609 | appending a link whose source is no element leaves the output unchanged |
| CompilerProofs.LockstepPortKeys | src/dialogger.js:611-616 | in lockstep, port 0 selects `_default` and port k selects `values[k-1]` |
| CompilerProofs.RemovedPortKeyMissing | src/dialogger.js:611-618 | a link kept on a port that `-` removed now selects the `undefined` key |
| Scenarios.StartingTextWithTwoChoices | src/dialogger.js:619-630 | a StartingText linked to two Choices compiles to `choices` of both ids, in link order, with no `next` |
| Scenarios.ChoiceThenNodeAdmitted | src/dialogger.js:79-92 | once a StartingText port links to a Choice, the editor also admits a link from that port to a Node |
| Scenarios.ChoiceThenNodeCompiles | src/dialogger.js:619-631 | that graph compiles to a record with both `choices` and `next` |
| Scenarios.BranchWithoutDefault | src/dialogger.js:579-618 | a Branch linked only from its `yes` port compiles to a table holding `yes` alone, without `_default` |
| Filenames.GameFilename | src/dialogger.js:740-742 | the result replaces the last two characters with `on`; a name shorter than two characters becomes `on` |
| Filenames.GameFilenameFixesOnSuffix | src/dialogger.js:740-742 | a name already ending in `on` is returned unchanged |
| Filenames.GameFilenameIdempotent | src/dialogger.js:740-742 | applying the renaming twice is the same as once |
| Filenames.DefaultGameFilename | src/dialogger.js:641 | the default file name `dialogue.json` is also its own game file name |

## Behaviour worth knowing

- `gameData` writes `_default` into a Branch's table only when a link
  leaves port 0 (lines 581-585, 613); see `Scenarios.BranchWithoutDefault`.
- `removePort` drops the port but leaves its links in the graph (lines
  448-458); they then select the `undefined` key (line 616); see
  `CompilerProofs.RemovedPortKeyMissing`.
- `validateMagnet` inspects only the first link leaving a port and never
  the candidate target (lines 79-92). A line whose first link reaches a
  Choice may therefore also be linked to a Node
  (`Scenarios.ChoiceThenNodeAdmitted`), and its record then has both
  `choices` and `next` (`Scenarios.ChoiceThenNodeCompiles`).
- `dialogue.json` is both the default graph file name and the game file
  name derived from it (lines 641, 740-742, 748); see
  `Filenames.DefaultGameFilename`.

## Left out

- **Rendering and the DOM.** The element views, text boxes, sizing,
  panning, zooming and the context menu are user interface. The Branch
  value-edit handler (`updateBox`, lines 470-507) is modelled only as the
  `values` it leaves behind.
- **File I/O.** `offerDownload`, `prompt`, the file picker, `fs`, the
  `filename` variable, `clear`, and graph (de)serialization (`toJSON` /
  `fromJSON`) are I/O. The graph is given directly as its cell sequence.
- **Link order.** `graph.getConnectedLinks` is taken to list links in graph
  order.
- **`getCell` on an unknown id.** This would throw; it is modelled as "not
  an allowed type", which gives `false`.
- **JointJS internals.** Cascading removal of links when an element is
  deleted, and link pinning and dropping, are JointJS behaviour.
- Editor.PortDiscipline: only drawing links and placing elements are shown
  to keep it. Three other edits do not, and are not modelled:
  - removing a link with its remove tool (line 27), or deleting its target
    (line 192), can leave a line's port with two links whose first no
    longer ends at a Choice;
  - Alt-click cloning (lines 801-807) copies any cell, a link included, so
    a Set's port can end up with two links;
  - dragging a link's end is checked by `validateConnection` alone, never
    by `validateMagnet`.
- **JavaScript object keys.** All keys are strings, so a value named
  `_default`, `null` or `undefined` would share an entry with those keys.
  Key enumeration order is also not modelled. Keys are kept apart as
  `BranchKey` constructors.
- **DOM attribute stringification.** The `unlimitedConnections` array as a
  DOM attribute is modelled by its meaning, a list of kinds.
- Decimal.ParseInt: reads only a leading run of decimal digits. Signs,
  whitespace, hexadecimal prefixes and values past 2^53 are not modelled;
  the editor only ever builds port names `output<k>`.
- Filenames.GameFilename: lengths count characters, not UTF-16 code units as
  `length` and `substring` do; names with characters outside the Basic
  Multilingual Plane lose a different tail, and a cut surrogate pair cannot
  be represented.

=== FILE: branch_ports.dfy ===
/** Editing a Branch's ports: the `+` and `-` buttons append or drop the
    last output port together with its value slot. Port 0 is the default
    branch; port k (k >= 1) belongs to `values[k-1]`. */
module BranchPorts {
  import opened Wrappers
  import opened Registry
  import opened Decimal

  /** The name of the k-th output port: `"output" + k.toString()`. */
  function OutputPortName(k: nat): (name: string) {
    "output" + NatToString(k)
  }

  /** The lockstep invariant of a Branch: one value per non-default port,
      and port i is named `output<i>`. */
  predicate PortsInLockstep(c: NodeCell) {
    && |c.values| == |c.outPorts| - 1
    && forall i :: 0 <= i < |c.outPorts| ==> c.outPorts[i] == OutputPortName(i)
  }

  /** `addPort`: append port `output<n>` (n the current port count) and an
      unset (`null`) value; nothing else about the element changes. */
  function AddPort(c: NodeCell): (r: NodeCell)
    ensures |r.outPorts| == |c.outPorts| + 1 && r.outPorts[..|c.outPorts|] == c.outPorts
    ensures |r.values| == |c.values| + 1
    ensures r.values[..|c.values|] == c.values && r.values[|r.values| - 1] == None
    ensures r.outPorts[|c.outPorts|] == OutputPortName(|c.outPorts|)
    ensures r.(outPorts := c.outPorts, values := c.values) == c
    ensures PortsInLockstep(c) ==> PortsInLockstep(r)
  {
    c.(outPorts := c.outPorts + [OutputPortName(|c.outPorts|)], values := c.values + [None])
  }

  /** `removePort`: drop the last port and the last value, unless only one
      port is left. Links leaving the dropped port stay in the graph. */
  function RemovePort(c: NodeCell): (r: NodeCell)
    ensures |c.outPorts| <= 1 ==> r == c
    ensures |c.outPorts| > 1 ==> r.outPorts == c.outPorts[..|c.outPorts| - 1]
    ensures |c.outPorts| > 1 && |c.values| > 0 ==> r.values == c.values[..|c.values| - 1]
    ensures |c.outPorts| > 1 && |c.values| == 0 ==> r.values == []
    ensures r.(outPorts := c.outPorts, values := c.values) == c
    ensures PortsInLockstep(c) ==> PortsInLockstep(r)
  {
    if |c.outPorts| > 1 then
      // `Array.prototype.pop` on an empty list leaves it empty
      var values := if |c.values| > 0 then c.values[..|c.values| - 1] else c.values;
      c.(outPorts := c.outPorts[..|c.outPorts| - 1], values := values)
    else c
  }

  /** A freshly created Branch is in lockstep: port `output0`, no values. */
  lemma DefaultBranchInLockstep(id: Id)
    ensures PortsInLockstep(DefaultCell(Branch, id))
  {
    assert NatToString(0) == "0";
  }

  /** Removing right after adding restores the element (the default port
      is never removed, so the element must have one). */
  lemma RemoveAfterAdd(c: NodeCell)
    requires |c.outPorts| >= 1
    ensures RemovePort(AddPort(c)) == c
  {
    var a := AddPort(c);
    assert a.outPorts[..|a.outPorts| - 1] == c.outPorts;
    assert a.values[..|a.values| - 1] == c.values;
  }

  /** Every element reachable from the default Branch by `+` and `-`
      presses is in lockstep. */
  lemma {:induction false} PressesKeepLockstep(id: Id, presses: seq<bool>)
    ensures PortsInLockstep(ApplyPresses(DefaultCell(Branch, id), presses))
    decreases |presses|
  {
    if |presses| == 0 {
      DefaultBranchInLockstep(id);
    } else {
      PressesKeepLockstep(id, presses[..|presses| - 1]);
    }
  }

  /** Apply a sequence of button presses in order: true for `+`, false for `-`. */
  function ApplyPresses(c: NodeCell, presses: seq<bool>): (r: NodeCell)
    decreases |presses|
  {
    if |presses| == 0 then c
    else
      var before := ApplyPresses(c, presses[..|presses| - 1]);
      if presses[|presses| - 1] then AddPort(before) else RemovePort(before)
  }

  /** Port names in lockstep decode back to their position: the suffix after
      `output` parses to the port number. */
  lemma PortNumberOfLockstepPort(c: NodeCell, k: nat)
    requires PortsInLockstep(c)
    requires k < |c.outPorts|
    ensures |c.outPorts[k]| >= 6 && ParseInt(c.outPorts[k][6..]) == Some(k)
  {
    assert c.outPorts[k][6..] == NatToString(k) + "";
    ParseIntRoundTrip(k, "");
  }
}

=== FILE: compiler.dfy ===
/** The game-file compiler `gameData`: a two-pass fold that flattens the
    editor graph into script records a dialogue player can follow without
    ports. Pass one emits one record per element; pass two lets every link
    fill in its source's `next`, `choices` or `branches`. */
module Compiler {
  import opened Wrappers
  import opened Registry
  import opened Decimal

  /** A key of a Branch record's `branches` table: the default port's
      `_default`, a configured value (possibly `null`), or the `undefined`
      that a port with no value slot yields. */
  datatype BranchKey = DefaultKey | ValueKey(value: Option<string>) | MissingKey

  /** The `next` field: absent from the record, `null`, or a target id. */
  datatype Next = Absent | Null | To(target: Id)

  /** A compiled script record; `None` fields are absent from its JSON. */
  datatype ScriptNode = ScriptNode(
    kind: Kind,
    id: Id,
    actor: Option<string>,
    title: Option<string>,
    name: Option<string>,
    variable: Option<string>,
    value: Option<string>,
    next: Next,
    choices: Option<seq<Id>>,
    branches: Option<map<BranchKey, Option<Id>>>)

  /** The compiler's result: the records, and the table `nodesByID` from an
      element id to the position of its record. */
  datatype Compiled = Compiled(nodes: seq<ScriptNode>, byId: map<Id, nat>)

  /** The element cells of a graph, in graph order. */
  function Elements(cells: seq<Cell>): (r: seq<NodeCell>)
    decreases |cells|
  {
    if |cells| == 0 then []
    else
      var last := cells[|cells| - 1];
      Elements(cells[..|cells| - 1]) + (if last.Element? then [last.node] else [])
  }

  /** Listing the elements of a graph split in two lists those of the first
      part and then those of the second: graph order is kept. */
  lemma {:induction false} ElementsOfAppend(a: seq<Cell>, b: seq<Cell>)
    ensures Elements(a + b) == Elements(a) + Elements(b)
    decreases |b|
  {
    if |b| == 0 {
      assert a + b == a;
    } else {
      var b' := b[..|b| - 1];
      ElementsOfAppend(a, b');
      assert (a + b)[..|a + b| - 1] == a + b';
      assert (a + b)[|a + b| - 1] == b[|b| - 1];
    }
  }

  /** The elements listed are exactly the element cells of the graph. */
  lemma {:induction false} ElementsAreTheElementCells(cells: seq<Cell>)
    ensures forall n :: n in Elements(cells) <==> Element(n) in cells
    decreases |cells|
  {
    if |cells| > 0 {
      var p := cells[..|cells| - 1];
      ElementsAreTheElementCells(p);
      assert cells == p + [cells[|cells| - 1]];
    }
  }

  /** `m` finds, for every id of `ns`, the position of the LAST element with
      that id, and knows no other ids. */
  ghost predicate IndexesLast(ns: seq<NodeCell>, m: map<Id, nat>) {
    && (forall id :: id in m <==> exists i :: 0 <= i < |ns| && ns[i].id == id)
    && (forall id :: id in m ==> m[id] < |ns| && ns[m[id]].id == id)
    && (forall id, j :: id in m && m[id] < j < |ns| ==> ns[j].id != id)
  }

  /** Filling `nodesByID` in element order; a repeated id is overwritten by
      its later element. */
  function IndexById(ns: seq<NodeCell>): (m: map<Id, nat>)
    ensures IndexesLast(ns, m)
  {
    if |ns| == 0 then map[]
    else
      var prefix := ns[..|ns| - 1];
      var m0 := IndexById(prefix);
      assert ns == prefix + [ns[|ns| - 1]];
      IndexesLastSnoc(prefix, ns[|ns| - 1], m0);
      m0[ns[|ns| - 1].id := |ns| - 1]
  }

  /** Recording one more element keeps the index pointing at last ids. */
  lemma IndexesLastSnoc(ns: seq<NodeCell>, n: NodeCell, m: map<Id, nat>)
    requires IndexesLast(ns, m)
    ensures IndexesLast(ns + [n], m[n.id := |ns|])
  {
    var ns' := ns + [n];
    var m' := m[n.id := |ns|];
    forall id | id in m'
      ensures exists i :: 0 <= i < |ns'| && ns'[i].id == id
    {
      if id == n.id {
        assert ns'[|ns|].id == id;
      } else {
        var i :| 0 <= i < |ns| && ns[i].id == id;
        assert ns'[i].id == id;
      }
    }
    forall id | exists i :: 0 <= i < |ns'| && ns'[i].id == id
      ensures id in m'
    {
      var i :| 0 <= i < |ns'| && ns'[i].id == id;
      if i < |ns| {
        assert ns[i].id == id;
      }
    }
    forall id | id in m'
      ensures m'[id] < |ns'| && ns'[m'[id]].id == id
    {
      if id != n.id {
        assert ns'[m[id]] == ns[m[id]];
      }
    }
    forall id, j | id in m' && m'[id] < j < |ns'|
      ensures ns'[j].id != id
    {
      if j < |ns| {
        assert ns'[j] == ns[j];
      }
    }
  }

  /** A Branch's first-pass table: every configured value mapped to `null`;
      there is no `_default` entry yet. */
  function InitialBranches(values: seq<Option<string>>): (b: map<BranchKey, Option<Id>>)
    ensures forall k :: k in b <==> k.ValueKey? && k.value in values
    ensures forall k :: k in b ==> b[k] == None
  {
    var keys := set v | v in values :: ValueKey(v);
    map k | k in keys :: None
  }

  /** What the first pass exports for element `c`: type, id, actor and
      title always; a Branch its variable and its initial table, with no
      `next`; a Set its variable and value, with `next` null; every other
      kind its name, with `next` null. No record has `choices` yet. */
  predicate Emitted(c: NodeCell, n: ScriptNode) {
    && n.kind == c.kind && n.id == c.id && n.actor == c.actor && n.title == c.title
    && n.choices.None?
    && (c.kind == Branch ==>
          && n.variable == Some(c.name) && n.name.None? && n.value.None?
          && n.next == Absent && n.branches == Some(InitialBranches(c.values)))
    && (c.kind == Set ==>
          && n.variable == Some(c.name) && n.value == c.value && n.name.None?
          && n.next == Null && n.branches.None?)
    && (c.kind != Branch && c.kind != Set ==>
          && n.name == Some(c.name) && n.variable.None? && n.value.None?
          && n.next == Null && n.branches.None?)
  }

  /** The first-pass record of one element. */
  function Emit(c: NodeCell): (r: ScriptNode)
    ensures Emitted(c, r)
  {
    match c.kind
    case Branch =>
      ScriptNode(c.kind, c.id, c.actor, c.title, None, Some(c.name), None, Absent, None,
                 Some(InitialBranches(c.values)))
    case Set =>
      ScriptNode(c.kind, c.id, c.actor, c.title, None, Some(c.name), c.value, Null, None, None)
    case _ =>
      ScriptNode(c.kind, c.id, c.actor, c.title, Some(c.name), None, None, Null, None, None)
  }

  /** Two records exported from the same element are the same record. */
  lemma EmittedIsUnique(c: NodeCell, n: ScriptNode, m: ScriptNode)
    requires Emitted(c, n) && Emitted(c, m)
    ensures n == m
  {
  }

  /** The length of the port-name prefix `"output"`. */
  const OutputPrefixLength: nat := 6

  /** The `branches` key a link leaving port `port` of a Branch writes:
      `parseInt(port.slice(6))` is the port number; port 0 is `_default`,
      port k is `values[k-1]`, and a number with no value slot (or no
      number at all) reads `undefined`. */
  function BranchKeyFor(values: seq<Option<string>>, port: string): (r: BranchKey) {
    match ParseInt(PortSuffix(port))
    case None => MissingKey
    case Some(k) =>
      if k == 0 then DefaultKey
      else if k - 1 < |values| then ValueKey(values[k - 1])
      else MissingKey
  }

  /** The key is `_default` exactly for port number 0 and a value exactly
      for a port number with a value slot; anything else (no number, or a
      number past the slots) is the `undefined` key. */
  lemma BranchKeyForPortNumber(values: seq<Option<string>>, port: string)
    ensures var n := ParseInt(PortSuffix(port)); var r := BranchKeyFor(values, port);
      && (r == DefaultKey <==> n == Some(0))
      && (r.ValueKey? <==> n.Some? && 1 <= n.value <= |values|)
      && (r.ValueKey? ==> r.value == values[n.value - 1])
      && (r == MissingKey <==> n.None? || n.value > |values|)
  {
  }

  /** `port.slice(6)`: the port name after `output` (empty when shorter). */
  function PortSuffix(port: string): (r: string) {
    if |port| >= OutputPrefixLength then port[OutputPrefixLength..] else ""
  }

  /** Every entry of the id index points at an element. */
  predicate Indexed(ns: seq<NodeCell>, byId: map<Id, nat>) {
    forall id :: id in byId ==> byId[id] < |ns|
  }

  /** The first-pass tables a second-pass step reads: the elements, an index
      into them, and one record per element (a Branch's with its table). */
  predicate Context(ns: seq<NodeCell>, byId: map<Id, nat>, nodes: seq<ScriptNode>) {
    && |nodes| == |ns|
    && Indexed(ns, byId)
    && (forall i :: 0 <= i < |nodes| ==> nodes[i].kind == ns[i].kind)
    && (forall i :: 0 <= i < |nodes| && nodes[i].kind == Branch ==> nodes[i].branches.Some?)
  }

  /** The element a link ends at, looked up by id; none for a dangling link
      or an id that is not an element's. */
  function ResolveTarget(ns: seq<NodeCell>, byId: map<Id, nat>, l: LinkCell): (r: Option<NodeCell>)
    requires Indexed(ns, byId)
    ensures r.Some? ==> r.value in ns
  {
    if l.target.Some? && l.target.value.id in byId then Some(ns[byId[l.target.value.id]])
    else None
  }

  /** What a link from an element does to that element's record `n`:
      - a Branch records the target (or `null`) under the port's key;
      - a line linked to a Choice appends the choice's id to `choices`,
        dropping `next` when `choices` is first created;
      - anything else points `next` at the target, or at `null`. */
  function Step(n: ScriptNode, values: seq<Option<string>>, l: LinkCell, target: Option<NodeCell>): (r: ScriptNode)
    requires n.kind == Branch ==> n.branches.Some?
    ensures r.(next := n.next, choices := n.choices, branches := n.branches) == n
    ensures r.kind == Branch ==> r.branches.Some?
  {
    var tid := if target.Some? then Some(target.value.id) else None;
    if n.kind == Branch then
      n.(branches := Some(n.branches.value[BranchKeyFor(values, l.source.port) := tid]))
    else if IsLine(n.kind) && target.Some? && target.value.kind == Choice then
      n.(choices := Some(n.choices.GetOr([]) + [target.value.id]),
         next := if n.choices.None? then Absent else n.next)
    else
      n.(next := if target.Some? then To(target.value.id) else Null)
  }

  /** One cell of the second pass: elements and links from unknown sources
      change nothing; a link updates the record of its source. */
  function ApplyCell(ns: seq<NodeCell>, byId: map<Id, nat>, nodes: seq<ScriptNode>, c: Cell): (r: seq<ScriptNode>)
    requires Context(ns, byId, nodes)
    ensures Context(ns, byId, r)
  {
    if c.Element? || c.link.source.id !in byId then nodes
    else
      var i := byId[c.link.source.id];
      nodes[i := Step(nodes[i], ns[i].values, c.link, ResolveTarget(ns, byId, c.link))]
  }

  /** The record with its link-dependent fields reset: what the second pass
      may not change. */
  function Fixed(n: ScriptNode): (f: ScriptNode) {
    n.(next := Absent, choices := None, branches := None)
  }

  /** The second pass over `cells`, in graph order. It touches nothing but
      `next`, `choices` and `branches`. */
  function SecondPass(ns: seq<NodeCell>, byId: map<Id, nat>, nodes: seq<ScriptNode>, cells: seq<Cell>): (r: seq<ScriptNode>)
    requires Context(ns, byId, nodes)
    ensures Context(ns, byId, r)
    ensures forall i :: 0 <= i < |r| ==> Fixed(r[i]) == Fixed(nodes[i])
    decreases |cells|
  {
    if |cells| == 0 then nodes
    else ApplyCell(ns, byId, SecondPass(ns, byId, nodes, cells[..|cells| - 1]), cells[|cells| - 1])
  }

  /** The first pass: one record per element, in element order. */
  function FirstPass(ns: seq<NodeCell>): (r: seq<ScriptNode>)
    ensures |r| == |ns|
    ensures forall i :: 0 <= i < |ns| ==> Emitted(ns[i], r[i])
  {
    seq(|ns|, i requires 0 <= i < |ns| => Emit(ns[i]))
  }

  /** `gameData()`: compile the graph's cells. */
  function GameData(cells: seq<Cell>): (r: Compiled)
    ensures |r.nodes| == |Elements(cells)|
    ensures IndexesLast(Elements(cells), r.byId)
    ensures forall i :: 0 <= i < |r.nodes| ==> Fixed(r.nodes[i]) == Fixed(Emit(Elements(cells)[i]))
  {
    var ns := Elements(cells);
    var byId := IndexById(ns);
    Compiled(SecondPass(ns, byId, FirstPass(ns), cells), byId)
  }
}

=== FILE: compiler_proofs.dfy ===
/** What `gameData` computes, stated record by record against reference
    definitions: the first pass's fields, a Branch's `branches` table (the
    last link per key wins), a line's `choices` list (Choice targets in link
    order) and every record's `next` field. */
module CompilerProofs {
  import opened Wrappers
  import opened Registry
  import opened BranchPorts
  import opened Compiler

  /** Cell `c` is a link whose source resolves to element `i`. */
  predicate FromNode(byId: map<Id, nat>, c: Cell, i: nat) {
    c.Link? && c.link.source.id in byId && byId[c.link.source.id] == i
  }

  /** The id the compiler records for a link's target, or `null`. */
  function TargetId(ns: seq<NodeCell>, byId: map<Id, nat>, l: LinkCell): (r: Option<Id>)
    requires Indexed(ns, byId)
  {
    match ResolveTarget(ns, byId, l)
    case Some(t) => Some(t.id)
    case None => None
  }

  /** The record of element `i` after only the links from `i` have acted on
      it, in order. */
  function NodeFold(ns: seq<NodeCell>, byId: map<Id, nat>, i: nat, n: ScriptNode, cells: seq<Cell>): (r: ScriptNode)
    requires Indexed(ns, byId) && i < |ns|
    requires n.kind == Branch ==> n.branches.Some?
    ensures r.kind == Branch ==> r.branches.Some?
    ensures Fixed(r) == Fixed(n)
    decreases |cells|
  {
    if |cells| == 0 then n
    else
      var r0 := NodeFold(ns, byId, i, n, cells[..|cells| - 1]);
      var c := cells[|cells| - 1];
      if FromNode(byId, c, i) then Step(r0, ns[i].values, c.link, ResolveTarget(ns, byId, c.link))
      else r0
  }

  /** The second pass acts on each record separately: record `i` sees only
      the links whose source is element `i`. */
  lemma {:induction false} SecondPassPerNode(ns: seq<NodeCell>, byId: map<Id, nat>, nodes: seq<ScriptNode>, cells: seq<Cell>, i: nat)
    requires Context(ns, byId, nodes) && i < |nodes|
    ensures SecondPass(ns, byId, nodes, cells)[i] == NodeFold(ns, byId, i, nodes[i], cells)
    decreases |cells|
  {
    if |cells| > 0 {
      SecondPassPerNode(ns, byId, nodes, cells[..|cells| - 1], i);
    }
  }

  /** A record no link leaves from is left as it was. */
  lemma {:induction false} NodeFoldWithoutLinks(ns: seq<NodeCell>, byId: map<Id, nat>, i: nat, n: ScriptNode, cells: seq<Cell>)
    requires Indexed(ns, byId) && i < |ns|
    requires n.kind == Branch ==> n.branches.Some?
    requires forall j :: 0 <= j < |cells| ==> !FromNode(byId, cells[j], i)
    ensures NodeFold(ns, byId, i, n, cells) == n
    decreases |cells|
  {
    if |cells| > 0 {
      NodeFoldWithoutLinks(ns, byId, i, n, cells[..|cells| - 1]);
    }
  }

  // ---------------------------------------------------------------------
  // Branch records

  /** Cell `c` is a link from Branch element `i` whose port selects key `k`. */
  predicate KeyedLink(ns: seq<NodeCell>, byId: map<Id, nat>, i: nat, c: Cell, k: BranchKey)
    requires i < |ns|
  {
    FromNode(byId, c, i) && BranchKeyFor(ns[i].values, c.link.source.port) == k
  }

  /** Position `j` holds the last link from `i` that selects key `k`. */
  predicate LastKeyed(ns: seq<NodeCell>, byId: map<Id, nat>, i: nat, cells: seq<Cell>, j: int, k: BranchKey)
    requires i < |ns|
  {
    && 0 <= j < |cells|
    && KeyedLink(ns, byId, i, cells[j], k)
    && forall j' :: j < j' < |cells| ==> !KeyedLink(ns, byId, i, cells[j'], k)
  }

  /** Folding a Branch's links changes only its table, which stays present. */
  lemma {:induction false} BranchFoldShape(ns: seq<NodeCell>, byId: map<Id, nat>, i: nat, n: ScriptNode, cells: seq<Cell>)
    requires Indexed(ns, byId) && i < |ns|
    requires n.kind == Branch && n.branches.Some?
    ensures var r := NodeFold(ns, byId, i, n, cells);
      r.branches.Some? && r.(branches := n.branches) == n
    decreases |cells|
  {
    if |cells| > 0 {
      BranchFoldShape(ns, byId, i, n, cells[..|cells| - 1]);
    }
  }

  /** The table's keys: the initial ones plus every key some link selects. */
  lemma {:induction false} BranchFoldKeys(ns: seq<NodeCell>, byId: map<Id, nat>, i: nat, n: ScriptNode, cells: seq<Cell>)
    requires Indexed(ns, byId) && i < |ns|
    requires n.kind == Branch && n.branches.Some?
    ensures var r := NodeFold(ns, byId, i, n, cells);
      r.branches.Some? &&
      forall k :: k in r.branches.value <==>
        k in n.branches.value || exists j :: 0 <= j < |cells| && KeyedLink(ns, byId, i, cells[j], k)
    decreases |cells|
  {
    BranchFoldShape(ns, byId, i, n, cells);
    if |cells| > 0 {
      var p := cells[..|cells| - 1];
      var x := cells[|cells| - 1];
      BranchFoldKeys(ns, byId, i, n, p);
      BranchFoldShape(ns, byId, i, n, p);
      assert forall j :: 0 <= j < |p| ==> p[j] == cells[j];
      if FromNode(byId, x, i) {
        var kx := BranchKeyFor(ns[i].values, x.link.source.port);
        assert KeyedLink(ns, byId, i, cells[|cells| - 1], kx);
      }
    }
  }

  /** The last link selecting a key decides that key's entry. */
  lemma {:induction false} BranchFoldLast(ns: seq<NodeCell>, byId: map<Id, nat>, i: nat, n: ScriptNode, cells: seq<Cell>)
    requires Indexed(ns, byId) && i < |ns|
    requires n.kind == Branch && n.branches.Some?
    ensures var r := NodeFold(ns, byId, i, n, cells);
      r.branches.Some? &&
      forall j, k :: LastKeyed(ns, byId, i, cells, j, k) ==>
        k in r.branches.value && r.branches.value[k] == TargetId(ns, byId, cells[j].link)
    decreases |cells|
  {
    BranchFoldShape(ns, byId, i, n, cells);
    if |cells| > 0 {
      var p := cells[..|cells| - 1];
      var x := cells[|cells| - 1];
      BranchFoldLast(ns, byId, i, n, p);
      BranchFoldShape(ns, byId, i, n, p);
      var b0 := NodeFold(ns, byId, i, n, p).branches.value;
      var b := NodeFold(ns, byId, i, n, cells).branches.value;
      if FromNode(byId, x, i) {
        var kx := BranchKeyFor(ns[i].values, x.link.source.port);
        assert b == b0[kx := TargetId(ns, byId, x.link)];
        forall j, k | LastKeyed(ns, byId, i, cells, j, k)
          ensures k in b && b[k] == TargetId(ns, byId, cells[j].link)
        {
          if j < |p| {
            assert KeyedLink(ns, byId, i, cells[|cells| - 1], kx);
            assert k != kx;
            assert p[j] == cells[j];
            assert LastKeyed(ns, byId, i, p, j, k);
          }
        }
      } else {
        assert b == b0;
        forall j, k | LastKeyed(ns, byId, i, cells, j, k)
          ensures k in b && b[k] == TargetId(ns, byId, cells[j].link)
        {
          assert p[j] == cells[j];
          assert LastKeyed(ns, byId, i, p, j, k);
        }
      }
    }
  }

  /** A key no link selects keeps its initial entry. */
  lemma {:induction false} BranchFoldUntouched(ns: seq<NodeCell>, byId: map<Id, nat>, i: nat, n: ScriptNode, cells: seq<Cell>)
    requires Indexed(ns, byId) && i < |ns|
    requires n.kind == Branch && n.branches.Some?
    ensures var r := NodeFold(ns, byId, i, n, cells);
      r.branches.Some? &&
      forall k :: k in n.branches.value && (forall j :: 0 <= j < |cells| ==> !KeyedLink(ns, byId, i, cells[j], k)) ==>
        k in r.branches.value && r.branches.value[k] == n.branches.value[k]
    decreases |cells|
  {
    BranchFoldShape(ns, byId, i, n, cells);
    if |cells| > 0 {
      var p := cells[..|cells| - 1];
      var x := cells[|cells| - 1];
      BranchFoldUntouched(ns, byId, i, n, p);
      BranchFoldShape(ns, byId, i, n, p);
      assert forall j :: 0 <= j < |p| ==> p[j] == cells[j];
      if FromNode(byId, x, i) {
        var kx := BranchKeyFor(ns[i].values, x.link.source.port);
        assert KeyedLink(ns, byId, i, cells[|cells| - 1], kx);
      }
    }
  }

  /** Over any sequence of links from Branch `i`: only the table changes;
      its keys are the initial ones plus the keys links select; the last
      link per key decides the entry; untouched keys keep theirs. */
  lemma BranchFold(ns: seq<NodeCell>, byId: map<Id, nat>, i: nat, n: ScriptNode, cells: seq<Cell>)
    requires Indexed(ns, byId) && i < |ns|
    requires n.kind == Branch && n.branches.Some?
    ensures var r := NodeFold(ns, byId, i, n, cells);
      && r.branches.Some?
      && r.(branches := n.branches) == n
      && (forall k :: k in r.branches.value <==>
            k in n.branches.value || exists j :: 0 <= j < |cells| && KeyedLink(ns, byId, i, cells[j], k))
      && (forall j, k :: LastKeyed(ns, byId, i, cells, j, k) ==>
            k in r.branches.value && r.branches.value[k] == TargetId(ns, byId, cells[j].link))
      && (forall k :: k in n.branches.value && (forall j :: 0 <= j < |cells| ==> !KeyedLink(ns, byId, i, cells[j], k)) ==>
            k in r.branches.value && r.branches.value[k] == n.branches.value[k])
  {
    BranchFoldShape(ns, byId, i, n, cells);
    BranchFoldKeys(ns, byId, i, n, cells);
    BranchFoldLast(ns, byId, i, n, cells);
    BranchFoldUntouched(ns, byId, i, n, cells);
  }

  // ---------------------------------------------------------------------
  // Records with `next` (every kind but Branch)

  /** Cell `c` is a link from line element `i` to a Choice: it feeds `choices`. */
  predicate ChoiceLink(ns: seq<NodeCell>, byId: map<Id, nat>, i: nat, c: Cell)
    requires Indexed(ns, byId) && i < |ns|
  {
    && FromNode(byId, c, i)
    && IsLine(ns[i].kind)
    && var t := ResolveTarget(ns, byId, c.link); t.Some? && t.value.kind == Choice
  }

  /** Cell `c` is any other link from element `i`: it sets `next`. */
  predicate NextLink(ns: seq<NodeCell>, byId: map<Id, nat>, i: nat, c: Cell)
    requires Indexed(ns, byId) && i < |ns|
  {
    FromNode(byId, c, i) && !ChoiceLink(ns, byId, i, c)
  }

  /** The `next` a link sets: its target's id, or `null`. */
  function NextOf(ns: seq<NodeCell>, byId: map<Id, nat>, l: LinkCell): (r: Next)
    requires Indexed(ns, byId)
  {
    match ResolveTarget(ns, byId, l)
    case Some(t) => To(t.id)
    case None => Null
  }

  /** The ids of the Choices that links from `i` reach, in link order. */
  function ChoiceTargets(ns: seq<NodeCell>, byId: map<Id, nat>, i: nat, cells: seq<Cell>): (ids: seq<Id>)
    requires Indexed(ns, byId) && i < |ns|
    decreases |cells|
  {
    if |cells| == 0 then []
    else
      var c := cells[|cells| - 1];
      ChoiceTargets(ns, byId, i, cells[..|cells| - 1]) +
        (if ChoiceLink(ns, byId, i, c) then [ResolveTarget(ns, byId, c.link).value.id] else [])
  }

  ghost predicate AnyChoiceLink(ns: seq<NodeCell>, byId: map<Id, nat>, i: nat, cells: seq<Cell>)
    requires Indexed(ns, byId) && i < |ns|
  {
    exists q :: 0 <= q < |cells| && ChoiceLink(ns, byId, i, cells[q])
  }

  /** Some `next`-setting link comes after some Choice link. */
  ghost predicate NextAfterChoice(ns: seq<NodeCell>, byId: map<Id, nat>, i: nat, cells: seq<Cell>)
    requires Indexed(ns, byId) && i < |ns|
  {
    exists q, j :: 0 <= q < j < |cells| && ChoiceLink(ns, byId, i, cells[q]) && NextLink(ns, byId, i, cells[j])
  }

  /** Position `j` holds the last `next`-setting link from `i`. */
  predicate LastNextLink(ns: seq<NodeCell>, byId: map<Id, nat>, i: nat, cells: seq<Cell>, j: int)
    requires Indexed(ns, byId) && i < |ns|
  {
    && 0 <= j < |cells|
    && NextLink(ns, byId, i, cells[j])
    && forall j' :: j < j' < |cells| ==> !NextLink(ns, byId, i, cells[j'])
  }

  lemma {:induction false} NoChoiceTargets(ns: seq<NodeCell>, byId: map<Id, nat>, i: nat, cells: seq<Cell>)
    requires Indexed(ns, byId) && i < |ns|
    requires !AnyChoiceLink(ns, byId, i, cells)
    ensures ChoiceTargets(ns, byId, i, cells) == []
    decreases |cells|
  {
    if |cells| > 0 {
      AnyChoiceLinkSnoc(ns, byId, i, cells);
      NoChoiceTargets(ns, byId, i, cells[..|cells| - 1]);
    }
  }

  /** How the three link summaries grow when one cell is appended. */
  lemma AnyChoiceLinkSnoc(ns: seq<NodeCell>, byId: map<Id, nat>, i: nat, cells: seq<Cell>)
    requires Indexed(ns, byId) && i < |ns| && |cells| > 0
    ensures AnyChoiceLink(ns, byId, i, cells) <==>
      AnyChoiceLink(ns, byId, i, cells[..|cells| - 1]) || ChoiceLink(ns, byId, i, cells[|cells| - 1])
  {
    var p := cells[..|cells| - 1];
    if AnyChoiceLink(ns, byId, i, cells) {
      var q :| 0 <= q < |cells| && ChoiceLink(ns, byId, i, cells[q]);
      if q < |p| {
        assert ChoiceLink(ns, byId, i, p[q]);
      }
    }
    if AnyChoiceLink(ns, byId, i, p) {
      var q :| 0 <= q < |p| && ChoiceLink(ns, byId, i, p[q]);
      assert ChoiceLink(ns, byId, i, cells[q]);
    }
  }

  lemma NextAfterChoiceSnoc(ns: seq<NodeCell>, byId: map<Id, nat>, i: nat, cells: seq<Cell>)
    requires Indexed(ns, byId) && i < |ns| && |cells| > 0
    ensures NextAfterChoice(ns, byId, i, cells) <==>
      NextAfterChoice(ns, byId, i, cells[..|cells| - 1]) ||
      (AnyChoiceLink(ns, byId, i, cells[..|cells| - 1]) && NextLink(ns, byId, i, cells[|cells| - 1]))
  {
    var p := cells[..|cells| - 1];
    if NextAfterChoice(ns, byId, i, cells) {
      var q, j :| 0 <= q < j < |cells| && ChoiceLink(ns, byId, i, cells[q]) && NextLink(ns, byId, i, cells[j]);
      assert ChoiceLink(ns, byId, i, p[q]);
      if j < |p| {
        assert NextLink(ns, byId, i, p[j]);
      }
    }
    if NextAfterChoice(ns, byId, i, p) {
      var q, j :| 0 <= q < j < |p| && ChoiceLink(ns, byId, i, p[q]) && NextLink(ns, byId, i, p[j]);
      assert ChoiceLink(ns, byId, i, cells[q]) && NextLink(ns, byId, i, cells[j]);
    }
    if AnyChoiceLink(ns, byId, i, p) && NextLink(ns, byId, i, cells[|cells| - 1]) {
      var q :| 0 <= q < |p| && ChoiceLink(ns, byId, i, p[q]);
      assert ChoiceLink(ns, byId, i, cells[q]);
    }
  }

  lemma LastNextLinkSnoc(ns: seq<NodeCell>, byId: map<Id, nat>, i: nat, cells: seq<Cell>)
    requires Indexed(ns, byId) && i < |ns| && |cells| > 0
    ensures NextLink(ns, byId, i, cells[|cells| - 1]) ==>
      forall j :: LastNextLink(ns, byId, i, cells, j) <==> j == |cells| - 1
    ensures !NextLink(ns, byId, i, cells[|cells| - 1]) ==>
      forall j :: LastNextLink(ns, byId, i, cells, j) ==> LastNextLink(ns, byId, i, cells[..|cells| - 1], j)
  {
  }

  /** Over any links, a non-Branch record changes only `next` and `choices`. */
  lemma {:induction false} LineFoldShape(ns: seq<NodeCell>, byId: map<Id, nat>, i: nat, n: ScriptNode, cells: seq<Cell>)
    requires Indexed(ns, byId) && i < |ns|
    requires n.kind == ns[i].kind && n.kind != Branch
    ensures NodeFold(ns, byId, i, n, cells).(next := n.next, choices := n.choices) == n
    decreases |cells|
  {
    if |cells| > 0 {
      LineFoldShape(ns, byId, i, n, cells[..|cells| - 1]);
    }
  }

  /** `choices` appears exactly when a line links to a Choice, and lists the
      Choices in link order. */
  lemma {:induction false} LineFoldChoices(ns: seq<NodeCell>, byId: map<Id, nat>, i: nat, n: ScriptNode, cells: seq<Cell>)
    requires Indexed(ns, byId) && i < |ns|
    requires n.kind == ns[i].kind && n.kind != Branch && n.choices.None?
    ensures var r := NodeFold(ns, byId, i, n, cells);
      && (r.choices.Some? <==> AnyChoiceLink(ns, byId, i, cells))
      && (r.choices.Some? ==> r.choices.value == ChoiceTargets(ns, byId, i, cells))
    decreases |cells|
  {
    if |cells| > 0 {
      var p := cells[..|cells| - 1];
      var x := cells[|cells| - 1];
      LineFoldShape(ns, byId, i, n, p);
      LineFoldChoices(ns, byId, i, n, p);
      AnyChoiceLinkSnoc(ns, byId, i, cells);
      if ChoiceLink(ns, byId, i, x) && !AnyChoiceLink(ns, byId, i, p) {
        NoChoiceTargets(ns, byId, i, p);
      }
    }
  }

  /** The first Choice link deletes `next`; it stays deleted unless a later
      plain link sets it again. */
  lemma {:induction false} LineFoldNextDeleted(ns: seq<NodeCell>, byId: map<Id, nat>, i: nat, n: ScriptNode, cells: seq<Cell>)
    requires Indexed(ns, byId) && i < |ns|
    requires n.kind == ns[i].kind && n.kind != Branch && n.choices.None?
    ensures AnyChoiceLink(ns, byId, i, cells) && !NextAfterChoice(ns, byId, i, cells) ==>
      NodeFold(ns, byId, i, n, cells).next == Absent
    decreases |cells|
  {
    if |cells| > 0 {
      var p := cells[..|cells| - 1];
      LineFoldChoices(ns, byId, i, n, p);
      LineFoldNextDeleted(ns, byId, i, n, p);
      AnyChoiceLinkSnoc(ns, byId, i, cells);
      NextAfterChoiceSnoc(ns, byId, i, cells);
    }
  }

  /** Otherwise the last plain link decides `next`. */
  lemma {:induction false} LineFoldNextLast(ns: seq<NodeCell>, byId: map<Id, nat>, i: nat, n: ScriptNode, cells: seq<Cell>)
    requires Indexed(ns, byId) && i < |ns|
    requires n.kind == ns[i].kind && n.kind != Branch && n.choices.None?
    ensures forall j ::
      (LastNextLink(ns, byId, i, cells, j) &&
       (!AnyChoiceLink(ns, byId, i, cells) || NextAfterChoice(ns, byId, i, cells)))
      ==> NodeFold(ns, byId, i, n, cells).next == NextOf(ns, byId, cells[j].link)
    decreases |cells|
  {
    if |cells| > 0 {
      var p := cells[..|cells| - 1];
      LineFoldChoices(ns, byId, i, n, p);
      LineFoldNextLast(ns, byId, i, n, p);
      AnyChoiceLinkSnoc(ns, byId, i, cells);
      NextAfterChoiceSnoc(ns, byId, i, cells);
      LastNextLinkSnoc(ns, byId, i, cells);
    }
  }

  /** With neither plain nor Choice links, `next` keeps its first-pass value. */
  lemma {:induction false} LineFoldNextKept(ns: seq<NodeCell>, byId: map<Id, nat>, i: nat, n: ScriptNode, cells: seq<Cell>)
    requires Indexed(ns, byId) && i < |ns|
    requires n.kind == ns[i].kind && n.kind != Branch && n.choices.None?
    ensures ((forall j :: 0 <= j < |cells| ==> !NextLink(ns, byId, i, cells[j])) &&
             !AnyChoiceLink(ns, byId, i, cells))
      ==> NodeFold(ns, byId, i, n, cells).next == n.next
    decreases |cells|
  {
    if |cells| > 0 {
      var p := cells[..|cells| - 1];
      LineFoldNextKept(ns, byId, i, n, p);
      AnyChoiceLinkSnoc(ns, byId, i, cells);
      if (forall j :: 0 <= j < |cells| ==> !NextLink(ns, byId, i, cells[j])) {
        assert forall j :: 0 <= j < |p| ==> !NextLink(ns, byId, i, p[j]) by {
          forall j | 0 <= j < |p|
            ensures !NextLink(ns, byId, i, p[j])
          {
            assert p[j] == cells[j];
          }
        }
      }
    }
  }

  /** Over a non-Branch record's links: only `next` and `choices` change;
      `choices` lists the Choice targets; `next` is deleted by Choice links, set by the last plain link, or kept. */
  lemma LineFold(ns: seq<NodeCell>, byId: map<Id, nat>, i: nat, n: ScriptNode, cells: seq<Cell>)
    requires Indexed(ns, byId) && i < |ns|
    requires n.kind == ns[i].kind && n.kind != Branch && n.choices.None?
    ensures var r := NodeFold(ns, byId, i, n, cells);
      && r.(next := n.next, choices := n.choices) == n
      && (r.choices.Some? <==> AnyChoiceLink(ns, byId, i, cells))
      && (r.choices.Some? ==> r.choices.value == ChoiceTargets(ns, byId, i, cells))
      && (AnyChoiceLink(ns, byId, i, cells) && !NextAfterChoice(ns, byId, i, cells) ==> r.next == Absent)
      && (forall j ::
            (LastNextLink(ns, byId, i, cells, j) &&
             (!AnyChoiceLink(ns, byId, i, cells) || NextAfterChoice(ns, byId, i, cells)))
            ==> r.next == NextOf(ns, byId, cells[j].link))
      && (((forall j :: 0 <= j < |cells| ==> !NextLink(ns, byId, i, cells[j])) &&
           !AnyChoiceLink(ns, byId, i, cells))
          ==> r.next == n.next)
  {
    LineFoldShape(ns, byId, i, n, cells);
    LineFoldChoices(ns, byId, i, n, cells);
    LineFoldNextDeleted(ns, byId, i, n, cells);
    LineFoldNextLast(ns, byId, i, n, cells);
    LineFoldNextKept(ns, byId, i, n, cells);
  }

  // ---------------------------------------------------------------------
  // The compiled output

  /** Record `i` of the output is the first-pass record of element `i`
      folded over the links that leave it, in graph order. */
  lemma GameDataPerNode(cells: seq<Cell>, i: nat)
    requires i < |Elements(cells)|
    ensures var ns := Elements(cells);
      GameData(cells).nodes[i] == NodeFold(ns, IndexById(ns), i, Emit(ns[i]), cells)
  {
    var ns := Elements(cells);
    EmittedIsUnique(ns[i], FirstPass(ns)[i], Emit(ns[i]));
    SecondPassPerNode(ns, IndexById(ns), FirstPass(ns), cells, i);
  }

  /** Pass one as seen in the output: record `i` belongs to the `i`-th
      element and carries its type, id and the fields its kind exports. */
  lemma GameDataFields(cells: seq<Cell>, i: nat)
    requires i < |Elements(cells)|
    ensures var c := Elements(cells)[i]; var n := GameData(cells).nodes[i];
      && n.kind == c.kind && n.id == c.id && n.actor == c.actor && n.title == c.title
      && (c.kind == Branch ==> n.variable == Some(c.name) && n.name.None? && n.value.None?)
      && (c.kind == Set ==> n.variable == Some(c.name) && n.value == c.value && n.name.None?)
      && (c.kind != Branch && c.kind != Set ==> n.name == Some(c.name) && n.variable.None? && n.value.None?)
  {
  }

  /** A Branch record has no `next` and no `choices`. Its `branches` table
      holds every configured value and every key a link from the Branch
      selected (`_default` only if a link leaves port 0); the last link per
      key decides its entry, and a value no link selected stays `null`. */
  lemma GameDataBranch(cells: seq<Cell>, i: nat)
    requires i < |Elements(cells)| && Elements(cells)[i].kind == Branch
    ensures var ns := Elements(cells); var byId := IndexById(ns); var n := GameData(cells).nodes[i];
      && n.next == Absent && n.choices.None? && n.branches.Some?
      && (forall k :: k in n.branches.value <==>
            (k.ValueKey? && k.value in ns[i].values) ||
            exists j :: 0 <= j < |cells| && KeyedLink(ns, byId, i, cells[j], k))
      && (DefaultKey in n.branches.value <==>
            exists j :: 0 <= j < |cells| && KeyedLink(ns, byId, i, cells[j], DefaultKey))
      && (forall j, k :: LastKeyed(ns, byId, i, cells, j, k) ==>
            k in n.branches.value && n.branches.value[k] == TargetId(ns, byId, cells[j].link))
      && (forall k: BranchKey ::
            (k.ValueKey? && k.value in ns[i].values &&
             forall j :: 0 <= j < |cells| ==> !KeyedLink(ns, byId, i, cells[j], k))
            ==> k in n.branches.value && n.branches.value[k].None?)
  {
    var ns := Elements(cells);
    var byId := IndexById(ns);
    var n0 := Emit(ns[i]);
    GameDataPerNode(cells, i);
    BranchFold(ns, byId, i, n0, cells);
    assert n0.branches == Some(InitialBranches(ns[i].values));
  }

  /** Every other record: `choices` exists exactly when a line links to a
      Choice and lists those Choices in link order; `next` is absent when
      Choice links come with no later plain link, otherwise it is the
      target of the last plain link, and `null` when there is none. */
  lemma GameDataNext(cells: seq<Cell>, i: nat)
    requires i < |Elements(cells)| && Elements(cells)[i].kind != Branch
    ensures var ns := Elements(cells); var byId := IndexById(ns); var n := GameData(cells).nodes[i];
      && n.branches.None?
      && (n.choices.Some? <==> AnyChoiceLink(ns, byId, i, cells))
      && (n.choices.Some? ==> n.choices.value == ChoiceTargets(ns, byId, i, cells))
      && (AnyChoiceLink(ns, byId, i, cells) && !NextAfterChoice(ns, byId, i, cells) ==> n.next == Absent)
      && (forall j ::
            (LastNextLink(ns, byId, i, cells, j) &&
             (!AnyChoiceLink(ns, byId, i, cells) || NextAfterChoice(ns, byId, i, cells)))
            ==> n.next == NextOf(ns, byId, cells[j].link))
      && (((forall j :: 0 <= j < |cells| ==> !NextLink(ns, byId, i, cells[j])) &&
           !AnyChoiceLink(ns, byId, i, cells))
          ==> n.next == Null)
  {
    var ns := Elements(cells);
    var byId := IndexById(ns);
    var first := FirstPass(ns);
    SecondPassPerNode(ns, byId, first, cells, i);
    LineFold(ns, byId, i, first[i], cells);
  }

  /** An element followed by another with the same id is not the one
      `nodesByID` keeps. */
  lemma ShadowedNotIndexed(ns: seq<NodeCell>, i: nat, j: nat)
    requires i < j < |ns| && ns[j].id == ns[i].id
    ensures IndexById(ns)[ns[i].id] != i
  {
  }

  /** An element `nodesByID` does not keep receives no links and keeps its
      first-pass record. */
  lemma GameDataUnindexedElement(cells: seq<Cell>, i: nat)
    requires i < |Elements(cells)|
    requires IndexById(Elements(cells))[Elements(cells)[i].id] != i
    ensures GameData(cells).nodes[i] == Emit(Elements(cells)[i])
  {
    var ns := Elements(cells);
    var byId := IndexById(ns);
    var first := FirstPass(ns);
    EmittedIsUnique(ns[i], first[i], Emit(ns[i]));
    SecondPassPerNode(ns, byId, first, cells, i);
    NodeFoldWithoutLinks(ns, byId, i, first[i], cells);
  }

  /** Of two elements sharing an id only the later one is linked; the
      earlier keeps its first-pass record. */
  lemma GameDataShadowedElement(cells: seq<Cell>, i: nat, j: nat)
    requires i < j < |Elements(cells)|
    requires Elements(cells)[j].id == Elements(cells)[i].id
    ensures GameData(cells).nodes[i] == Emit(Elements(cells)[i])
  {
    ShadowedNotIndexed(Elements(cells), i, j);
    GameDataUnindexedElement(cells, i);
  }

  /** A link whose source is not an element of the graph changes nothing. */
  lemma UnknownSourceIgnored(cells: seq<Cell>, l: LinkCell)
    requires forall c :: c in cells && c.Element? ==> c.node.id != l.source.id
    ensures GameData(cells + [Link(l)]) == GameData(cells)
  {
    var cells' := cells + [Link(l)];
    assert cells'[..|cells'| - 1] == cells;
    var ns := Elements(cells);
    assert Elements(cells') == ns;
    var byId := IndexById(ns);
    assert l.source.id !in byId by {
      ElementsAreTheElementCells(cells);
      forall i | 0 <= i < |ns|
        ensures ns[i].id != l.source.id
      {
        assert ns[i] in ns;
      }
    }
    var first := FirstPass(ns);
    assert SecondPass(ns, byId, first, cells') == SecondPass(ns, byId, first, cells);
  }

  // ---------------------------------------------------------------------
  // Branch ports and the keys they select

  /** In a Branch kept in lockstep, port 0 selects `_default` and port k
      selects the k-th value. */
  lemma LockstepPortKeys(c: NodeCell, k: nat)
    requires PortsInLockstep(c) && k < |c.outPorts|
    ensures BranchKeyFor(c.values, c.outPorts[k]) == if k == 0 then DefaultKey else ValueKey(c.values[k - 1])
  {
    PortNumberOfLockstepPort(c, k);
  }

  /** Removing a port keeps its links; such a link now selects the
      `undefined` key, since its value slot is gone. */
  lemma RemovedPortKeyMissing(c: NodeCell)
    requires PortsInLockstep(c) && |c.outPorts| > 1
    ensures BranchKeyFor(RemovePort(c).values, c.outPorts[|c.outPorts| - 1]) == MissingKey
  {
    PortNumberOfLockstepPort(c, |c.outPorts| - 1);
  }
}

=== FILE: decimal.dfy ===
/** Decimal numerals: `Number.prototype.toString()` on a natural number (used
    to name Branch output ports `output0`, `output1`, ...) and `parseInt` on
    the suffix of such a name (used by the compiler to recover the port
    number). */
module Decimal {
  import opened Wrappers

  predicate IsDigit(c: char) {
    '0' <= c <= '9'
  }

  function DigitValue(c: char): (d: nat)
    requires IsDigit(c)
    ensures d < 10
  {
    c as int - '0' as int
  }

  function DigitChar(d: nat): (c: char)
    requires d < 10
    ensures IsDigit(c) && DigitValue(c) == d
  {
    ('0' as int + d) as char
  }

  predicate AllDigits(s: string) {
    forall i :: 0 <= i < |s| ==> IsDigit(s[i])
  }

  /** The value of a string of decimal digits, most significant first. */
  function DigitsValue(s: string): (n: nat)
    requires AllDigits(s)
  {
    if |s| == 0 then 0 else 10 * DigitsValue(s[..|s| - 1]) + DigitValue(s[|s| - 1])
  }

  /** The shortest decimal rendering of `n`: digits only, no leading zero
      (except for `0` itself), and reading it back gives `n`. */
  function NatToString(n: nat): (s: string)
    ensures |s| >= 1
    ensures AllDigits(s)
    ensures DigitsValue(s) == n
    ensures n > 0 ==> s[0] != '0'
    ensures n == 0 ==> s == "0"
    decreases n
  {
    if n < 10 then [DigitChar(n)]
    else
      var prefix := NatToString(n / 10);
      var s := prefix + [DigitChar(n % 10)];
      assert s[..|s| - 1] == prefix;
      s
  }

  /** The number of leading decimal digits of `s`. */
  function LeadingDigits(s: string): (k: nat)
    ensures k <= |s|
    ensures AllDigits(s[..k])
    ensures k < |s| ==> !IsDigit(s[k])
  {
    if |s| == 0 || !IsDigit(s[0]) then 0
    else
      var k := 1 + LeadingDigits(s[1..]);
      assert forall i :: 1 <= i < k ==> s[..k][i] == s[1..][..k - 1][i - 1];
      k
  }

  /** `parseInt(s, 10)` restricted to what the editor feeds it: the value of
      the leading run of digits, ignoring whatever follows; None stands for
      the `NaN` returned when `s` does not start with a digit. */
  function ParseInt(s: string): (r: Option<nat>)
    ensures r.None? <==> |s| == 0 || !IsDigit(s[0])
  {
    var k := LeadingDigits(s);
    if k == 0 then None else Some(DigitsValue(s[..k]))
  }

  lemma {:induction false} LeadingDigitsOfConcat(s: string, t: string)
    requires AllDigits(s)
    requires |t| == 0 || !IsDigit(t[0])
    ensures LeadingDigits(s + t) == |s|
    decreases |s|
  {
    if |s| > 0 {
      assert (s + t)[1..] == s[1..] + t;
      LeadingDigitsOfConcat(s[1..], t);
    } else {
      assert s + t == t;
    }
  }

  /** Reading back a rendered number gives the number, whatever non-digit
      text follows it. */
  lemma ParseIntRoundTrip(n: nat, t: string)
    requires |t| == 0 || !IsDigit(t[0])
    ensures ParseInt(NatToString(n) + t) == Some(n)
  {
    var s := NatToString(n);
    LeadingDigitsOfConcat(s, t);
    assert (s + t)[..|s|] == s;
  }
}

=== FILE: editor.dfy ===
/** The editor's two graph edits that the core governs: placing a new
    element (a context-menu entry) and drawing a link between two ports,
    which the paper admits only when `validateMagnet` accepts the source
    port and `validateConnection` accepts the pair. */
module Editor {
  import opened Wrappers
  import opened Registry
  import opened Policy

  /** Place a default element of kind `k` under a fresh id. */
  function AddElement(cells: seq<Cell>, k: Kind, id: Id): (r: seq<Cell>)
    requires FindNode(cells, id).None?
    ensures FindNode(r, id) == Some(DefaultCell(k, id))
    ensures forall other :: other != id ==> FindNode(r, other) == FindNode(cells, other)
    ensures |r| == |cells| + 1 && r[..|cells|] == cells
  {
    var r := cells + [Element(DefaultCell(k, id))];
    assert r[..|r| - 1] == cells;
    r
  }

  /** The link drawn from port `ms` of `s` to port `mt` of `t`. */
  function LinkBetween(s: NodeCell, ms: Magnet, t: NodeCell, mt: Magnet): (l: LinkCell) {
    LinkCell(Endpoint(s.id, ms.port), Some(Endpoint(t.id, mt.port)))
  }

  /** Magnet `m` is one of the ports `c` declares: the paper only offers the
      validators port circles it drew for an element's port lists. */
  predicate HasPort(c: NodeCell, m: Magnet) {
    m.port in (if m.group == InPorts then c.inPorts else c.outPorts)
  }

  /** Draw a link from port `ms` of `s` to port `mt` of `t`; None when the
      paper refuses it, in which case the graph is unchanged. */
  function Connect(cells: seq<Cell>, s: NodeCell, ms: Magnet, t: NodeCell, mt: Magnet): (r: Option<seq<Cell>>)
    ensures r.Some? ==> HasPort(s, ms) && HasPort(t, mt) && |r.value| == |cells| + 1 && r.value[..|cells|] == cells
  {
    if HasPort(s, ms) && HasPort(t, mt) && ValidateMagnet(cells, s, ms) && ValidateConnection(s, ms, t, mt) then
      Some(cells + [Link(LinkBetween(s, ms, t, mt))])
    else None
  }

  /** An admitted link runs from an out-port to an in-port of another
      element the adjacency table allows, and is appended to the graph. */
  lemma ConnectAdmits(cells: seq<Cell>, s: NodeCell, ms: Magnet, t: NodeCell, mt: Magnet)
    requires Connect(cells, s, ms, t, mt).Some?
    ensures Connect(cells, s, ms, t, mt).value == cells + [Link(LinkBetween(s, ms, t, mt))]
    ensures s.id != t.id
    ensures ms.group == OutPorts && mt.group == InPorts
    ensures ms.port in s.outPorts && mt.port in t.inPorts
    ensures CanConnect(s.kind, t.kind)
  {
    CanConnectRule(s.kind, t.kind);
  }

  /** A free out-port may be linked to any passive port of another element
      the adjacency table allows; a port of a Choice, Set or Branch that
      already has a link refuses every further one. */
  lemma ConnectFreePort(cells: seq<Cell>, s: NodeCell, ms: Magnet, t: NodeCell, mt: Magnet)
    requires ms.group == OutPorts
    ensures NoLinkLeaves(cells, s.id, ms.port) ==>
      (Connect(cells, s, ms, t, mt).Some? <==>
         && ms.port in s.outPorts && mt.group == InPorts && mt.port in t.inPorts
         && s.id != t.id && CanConnect(s.kind, t.kind))
    ensures !IsLine(s.kind) && !NoLinkLeaves(cells, s.id, ms.port) ==> Connect(cells, s, ms, t, mt).None?
  {
    ValidateMagnetByKind(cells, s, ms);
    CanConnectRule(s.kind, t.kind);
  }

  /** A line's out-port that already has links takes one more exactly when
      its first link ends at a Choice; the new link's own target is then
      checked only against the adjacency table, so it need not be a Choice. */
  lemma ConnectBusyLinePort(cells: seq<Cell>, s: NodeCell, ms: Magnet, t: NodeCell, mt: Magnet)
    requires ms.group == OutPorts && IsLine(s.kind)
    requires !NoLinkLeaves(cells, s.id, ms.port)
    ensures var first := cells[FirstOutgoing(cells, s.id, ms.port).value].link;
      && (TargetKind(cells, first) == Some(Choice) ==>
            (Connect(cells, s, ms, t, mt).Some? <==>
               && ms.port in s.outPorts && mt.group == InPorts && mt.port in t.inPorts
               && s.id != t.id && CanConnect(s.kind, t.kind)))
      && (TargetKind(cells, first) != Some(Choice) ==> Connect(cells, s, ms, t, mt).None?)
  {
    ValidateMagnetByKind(cells, s, ms);
    CanConnectRule(s.kind, t.kind);
  }

  /** An element without in-ports is never the target of a link; in
      particular no link ever ends at a StartingText. */
  lemma NoLinkIntoStartingText(cells: seq<Cell>, s: NodeCell, ms: Magnet, t: NodeCell, mt: Magnet)
    requires t.inPorts == []
    ensures Connect(cells, s, ms, t, mt).None?
    ensures Connect(cells, s, ms, DefaultCell(StartingText, t.id), mt).None?
  {
    if Connect(cells, s, ms, t, mt).Some? {
      ConnectAdmits(cells, s, ms, t, mt);
    }
    var st := DefaultCell(StartingText, t.id);
    if Connect(cells, s, ms, st, mt).Some? {
      ConnectAdmits(cells, s, ms, st, mt);
    }
  }

  /** The port discipline that drawing links and placing elements keep:
      when a port has two links, its element is a line and the port's first
      link ends at a Choice. Graphs built by those two edits alone therefore
      never give a port of a Choice, Set or Branch two links; removing a
      link, Alt-click cloning and dragging a link's end do not keep it. */
  ghost predicate PortDiscipline(cells: seq<Cell>) {
    forall i, j ::
      0 <= i < j < |cells| && cells[i].Link? && cells[j].Link? &&
      cells[i].link.source == cells[j].link.source
      ==>
      SharedPortAllowed(cells, cells[i].link.source)
  }

  ghost predicate SharedPortAllowed(cells: seq<Cell>, src: Endpoint) {
    && FindNode(cells, src.id).Some?
    && IsLine(FindNode(cells, src.id).value.kind)
    && FirstOutgoing(cells, src.id, src.port).Some?
    && TargetKind(cells, cells[FirstOutgoing(cells, src.id, src.port).value].link) == Some(Choice)
  }

  /** Appending a link changes no lookup of elements. */
  lemma AppendLinkKeepsFindNode(cells: seq<Cell>, l: LinkCell, id: Id)
    ensures FindNode(cells + [Link(l)], id) == FindNode(cells, id)
  {
    assert (cells + [Link(l)])[..|cells|] == cells;
  }

  /** Appending a link keeps the first link of every port that had one. */
  lemma AppendLinkKeepsFirstOutgoing(cells: seq<Cell>, l: LinkCell, src: Endpoint)
    requires FirstOutgoing(cells, src.id, src.port).Some?
    ensures FirstOutgoing(cells + [Link(l)], src.id, src.port) == FirstOutgoing(cells, src.id, src.port)
  {
    var cells' := cells + [Link(l)];
    var f := FirstOutgoing(cells, src.id, src.port).value;
    assert LeavesFrom(cells'[f], src.id, src.port);
    var f' := FirstOutgoing(cells', src.id, src.port).value;
    assert cells'[f'] == cells[f'];
  }

  lemma AppendLinkKeepsTargetKind(cells: seq<Cell>, l: LinkCell, m: LinkCell)
    ensures TargetKind(cells + [Link(l)], m) == TargetKind(cells, m)
  {
    if m.target.Some? {
      AppendLinkKeepsFindNode(cells, l, m.target.value.id);
    }
  }

  lemma AppendLinkKeepsLookups(cells: seq<Cell>, l: LinkCell, src: Endpoint)
    requires FirstOutgoing(cells, src.id, src.port).Some?
    ensures var cells' := cells + [Link(l)];
      && FindNode(cells', src.id) == FindNode(cells, src.id)
      && FirstOutgoing(cells', src.id, src.port) == FirstOutgoing(cells, src.id, src.port)
      && TargetKind(cells', cells'[FirstOutgoing(cells, src.id, src.port).value].link) ==
         TargetKind(cells, cells[FirstOutgoing(cells, src.id, src.port).value].link)
  {
    var f := FirstOutgoing(cells, src.id, src.port).value;
    AppendLinkKeepsFindNode(cells, l, src.id);
    AppendLinkKeepsFirstOutgoing(cells, l, src);
    assert (cells + [Link(l)])[f] == cells[f];
    AppendLinkKeepsTargetKind(cells, l, cells[f].link);
  }

  /** Drawing a link keeps the port discipline. */
  lemma ConnectKeepsPortDiscipline(cells: seq<Cell>, s: NodeCell, ms: Magnet, t: NodeCell, mt: Magnet)
    requires PortDiscipline(cells)
    requires FindNode(cells, s.id) == Some(s)
    requires Connect(cells, s, ms, t, mt).Some?
    ensures PortDiscipline(Connect(cells, s, ms, t, mt).value)
  {
    var l := LinkBetween(s, ms, t, mt);
    var cells' := cells + [Link(l)];
    forall i, j |
      0 <= i < j < |cells'| && cells'[i].Link? && cells'[j].Link? &&
      cells'[i].link.source == cells'[j].link.source
      ensures SharedPortAllowed(cells', cells'[i].link.source)
    {
      var src := cells'[i].link.source;
      assert cells'[i] == cells[i];
      assert LeavesFrom(cells[i], src.id, src.port);
      AppendLinkKeepsLookups(cells, l, src);
      if j < |cells| {
        assert cells'[j] == cells[j];
        assert SharedPortAllowed(cells, src);
      } else {
        assert src == Endpoint(s.id, ms.port);
        var f := FirstOutgoing(cells, s.id, ms.port).value;
        assert LeavesFrom(cells[f], s.id, ms.port);
        assert ValidateMagnet(cells, s, ms);
        assert UnlimitedConnections(s.kind, ms.group).Some?;
      }
    }
  }

  /** Appending a fresh element keeps where a port's first link is. */
  lemma AddElementKeepsFirstOutgoing(cells: seq<Cell>, k: Kind, id: Id, src: Endpoint)
    requires FindNode(cells, id).None?
    requires FirstOutgoing(cells, src.id, src.port).Some?
    ensures FirstOutgoing(AddElement(cells, k, id), src.id, src.port) == FirstOutgoing(cells, src.id, src.port)
  {
    var cells' := AddElement(cells, k, id);
    var f := FirstOutgoing(cells, src.id, src.port).value;
    assert LeavesFrom(cells'[f], src.id, src.port);
    var f' := FirstOutgoing(cells', src.id, src.port);
    assert cells'[f'.value] == cells[f'.value];
  }

  /** A port that may share its links keeps that right when a fresh element
      is placed: its first link still ends at the same Choice. */
  lemma AddElementKeepsSharedPort(cells: seq<Cell>, k: Kind, id: Id, src: Endpoint)
    requires FindNode(cells, id).None?
    requires SharedPortAllowed(cells, src)
    ensures SharedPortAllowed(AddElement(cells, k, id), src)
  {
    var cells' := AddElement(cells, k, id);
    assert src.id != id;
    AddElementKeepsFirstOutgoing(cells, k, id, src);
    var f := FirstOutgoing(cells, src.id, src.port).value;
    assert cells'[f] == cells[f];
    var l' := cells[f].link;
    assert l'.target.Some? && l'.target.value.id != "";
    assert l'.target.value.id != id;
    assert FindNode(cells', l'.target.value.id) == FindNode(cells, l'.target.value.id);
  }

  /** Placing an element under a fresh id keeps the port discipline. */
  lemma AddElementKeepsPortDiscipline(cells: seq<Cell>, k: Kind, id: Id)
    requires PortDiscipline(cells)
    requires FindNode(cells, id).None?
    ensures PortDiscipline(AddElement(cells, k, id))
  {
    var cells' := AddElement(cells, k, id);
    forall i, j |
      0 <= i < j < |cells'| && cells'[i].Link? && cells'[j].Link? &&
      cells'[i].link.source == cells'[j].link.source
      ensures SharedPortAllowed(cells', cells'[i].link.source)
    {
      assert j < |cells|;
      assert cells'[i] == cells[i] && cells'[j] == cells[j];
      AddElementKeepsSharedPort(cells, k, id, cells[i].link.source);
    }
  }
}

=== FILE: filenames.dfy ===
/** `gameFilenameFromNormalFilename`: the name offered for the exported game
    file, made by replacing the last two characters of the graph's file
    name with `on`. */
module Filenames {

  function GameFilename(f: string): (r: string)
    ensures |r| == if |f| >= 2 then |f| else 2
    ensures r[|r| - 2..] == "on"
    ensures |f| >= 2 ==> r[..|f| - 2] == f[..|f| - 2]
  {
    // `substring(0, n)` with a negative `n` yields the empty string
    (if |f| >= 2 then f[..|f| - 2] else "") + "on"
  }

  /** A name already ending in `on` is returned unchanged. */
  lemma GameFilenameFixesOnSuffix(f: string)
    requires |f| >= 2 && f[|f| - 2..] == "on"
    ensures GameFilename(f) == f
  {
    assert f == f[..|f| - 2] + f[|f| - 2..];
  }

  /** Applying it twice is applying it once. */
  lemma GameFilenameIdempotent(f: string)
    ensures GameFilename(GameFilename(f)) == GameFilename(f)
  {
    GameFilenameFixesOnSuffix(GameFilename(f));
  }

  /** So the default graph file name `dialogue.json` is also the game file
      name: the two exports are offered under the same name. */
  lemma DefaultGameFilename()
    ensures GameFilename("dialogue.json") == "dialogue.json"
  {
    GameFilenameFixesOnSuffix("dialogue.json");
  }
}

=== FILE: policy.dfy ===
/** The connection policy: which kinds may be linked to which
    (`allowableConnections`, `validateConnection`) and whether a port may
    start another link (`validateMagnet`). */
module Policy {
  import opened Wrappers
  import opened Registry

  /** `Array.prototype.filter` on a list of kinds. */
  function Filter(s: seq<Kind>, keep: Kind -> bool): (r: seq<Kind>)
    ensures |r| <= |s|
    ensures forall x :: x in r <==> x in s && keep(x)
  {
    if |s| == 0 then []
    else (if keep(s[0]) then [s[0]] else []) + Filter(s[1..], keep)
  }

  /** The test `n => n !== "dialogue.Choice"` of the filtered rows. */
  predicate NotChoice(k: Kind) {
    k != Choice
  }

  /** The filtered row holds every kind except Choice. */
  lemma FilteredRowMembers()
    ensures forall t :: t in Filter(AllNodes, NotChoice) <==> t != Choice
  {
    AllNodesListsEveryKindOnce();
  }

  /** The adjacency table `allowableConnections`: the line kinds may target
      every kind, the others every kind but Choice. */
  function AllowableConnections(source: Kind): (targets: seq<Kind>)
    ensures forall t :: t in targets <==> t != Choice || IsLine(source)
  {
    AllNodesListsEveryKindOnce();
    FilteredRowMembers();
    if IsLine(source) then AllNodes else Filter(AllNodes, NotChoice)
  }

  /** `allowableConnections[sourceType].includes(targetType)`. */
  predicate CanConnect(source: Kind, target: Kind) {
    target in AllowableConnections(source)
  }

  /** The table read as a rule: only a Choice target is ever refused, and
      only when the source is not a line. */
  lemma CanConnectRule(source: Kind, target: Kind)
    ensures CanConnect(source, target) <==> target != Choice || IsLine(source)
  {
    AllNodesListsEveryKindOnce();
  }

  lemma CanConnectExamples()
    ensures !CanConnect(Choice, Choice)
    ensures CanConnect(StartingText, Choice) && CanConnect(Text, Choice)
    ensures !CanConnect(Set, Choice) && !CanConnect(Branch, Choice)
    ensures CanConnect(Set, Node)
  {
    CanConnectRule(Choice, Choice);
    CanConnectRule(StartingText, Choice);
    CanConnectRule(Text, Choice);
    CanConnectRule(Set, Choice);
    CanConnectRule(Branch, Choice);
    CanConnectRule(Set, Node);
  }

  /** A port circle of some element: its group fixes its polarity. */
  datatype Magnet = Magnet(group: PortGroup, port: string)

  /** `validateConnection(cellViewS, magnetS, cellViewT, magnetT)`: may a link
      run from magnet `ms` of `s` to magnet `mt` of `t`? Elements are told
      apart by id. */
  function ValidateConnection(s: NodeCell, ms: Magnet, t: NodeCell, mt: Magnet): (r: bool)
    ensures r <==> s.id != t.id && PolarityOf(mt.group) == Passive && (t.kind != Choice || IsLine(s.kind))
  {
    CanConnectRule(s.kind, t.kind);
    if s.id == t.id && ms == mt then false
    else if s.id == t.id then false
    else if PolarityOf(mt.group) != Passive then false
    else CanConnect(s.kind, t.kind)
  }

  /** Does cell `c` carry a link leaving port `port` of element `id`? */
  predicate LeavesFrom(c: Cell, id: Id, port: string) {
    c.Link? && c.link.source == Endpoint(id, port)
  }

  predicate NoLinkLeaves(cells: seq<Cell>, id: Id, port: string) {
    forall j :: 0 <= j < |cells| ==> !LeavesFrom(cells[j], id, port)
  }

  /** The position of the first link leaving port `port` of element `id`. */
  function FirstOutgoing(cells: seq<Cell>, id: Id, port: string): (r: Option<nat>)
    ensures r.None? <==> NoLinkLeaves(cells, id, port)
    ensures r.Some? ==> r.value < |cells| && LeavesFrom(cells[r.value], id, port)
    ensures r.Some? ==> forall j :: 0 <= j < r.value ==> !LeavesFrom(cells[j], id, port)
  {
    if |cells| == 0 then None
    else if LeavesFrom(cells[0], id, port) then Some(0)
    else
      match FirstOutgoing(cells[1..], id, port)
      case None => None
      case Some(j) => Some(j + 1)
  }

  /** The kind of the element a link ends at. A link with no target id, or
      with the empty id (which JavaScript reads as false), has none; so has
      one whose target is not in the graph. */
  function TargetKind(cells: seq<Cell>, l: LinkCell): (r: Option<Kind>) {
    if l.target.None? || l.target.value.id == "" then None
    else
      match FindNode(cells, l.target.value.id)
      case Some(n) => Some(n.kind)
      case None => None
  }

  /** A link has a target kind exactly when its target id is non-empty and
      names an element of the graph; the kind is that element's. */
  lemma TargetKindOfElement(cells: seq<Cell>, l: LinkCell)
    ensures TargetKind(cells, l).Some? <==>
      l.target.Some? && l.target.value.id != "" &&
      exists n :: Element(n) in cells && n.id == l.target.value.id
    ensures TargetKind(cells, l).Some? ==>
      exists n :: Element(n) in cells && n.id == l.target.value.id && n.kind == TargetKind(cells, l).value
  {
    if l.target.Some? && l.target.value.id != "" {
      var id := l.target.value.id;
      if exists n :: Element(n) in cells && n.id == id {
        var n :| Element(n) in cells && n.id == id;
        var i :| 0 <= i < |cells| && cells[i] == Element(n);
        assert cells[i].Element? && cells[i].node.id == id;
      }
    }
  }

  /** `validateMagnet(cellView, magnet)`: may a new link start at magnet `m`
      of element `c`? Only the first link already leaving that port is
      looked at, and the target of the new link is not known yet. */
  function ValidateMagnet(cells: seq<Cell>, c: NodeCell, m: Magnet): (r: bool)
    ensures PolarityOf(m.group) == Passive ==> !r
    ensures PolarityOf(m.group) == Active && NoLinkLeaves(cells, c.id, m.port) ==> r
  {
    if PolarityOf(m.group) == Passive then false
    else
      var unlimited := UnlimitedConnections(c.kind, m.group);
      match FirstOutgoing(cells, c.id, m.port)
      case None => true
      case Some(j) =>
        var tk := TargetKind(cells, cells[j].link);
        unlimited.Some? && tk.Some? && tk.value in unlimited.value
  }

  /** When the port already has links, the answer depends only on the first
      of them: the port must declare `unlimitedConnections` and that link
      must end at an element whose kind the list names. */
  lemma ValidateMagnetFirstLink(cells: seq<Cell>, c: NodeCell, m: Magnet, j: nat)
    requires j < |cells| && LeavesFrom(cells[j], c.id, m.port)
    requires forall i :: 0 <= i < j ==> !LeavesFrom(cells[i], c.id, m.port)
    ensures ValidateMagnet(cells, c, m) <==>
      && PolarityOf(m.group) == Active
      && var unlimited := UnlimitedConnections(c.kind, m.group);
         var tk := TargetKind(cells, cells[j].link);
         unlimited.Some? && tk.Some? && tk.value in unlimited.value
  {
  }

  /** What `validateMagnet` amounts to per kind: a port of a Choice, Set or
      Branch starts at most one link; a line's port starts another link only
      when its first link ends at a Choice. */
  lemma ValidateMagnetByKind(cells: seq<Cell>, c: NodeCell, m: Magnet)
    requires m.group == OutPorts
    ensures !IsLine(c.kind) ==> (ValidateMagnet(cells, c, m) <==> NoLinkLeaves(cells, c.id, m.port))
    ensures IsLine(c.kind) ==>
      (ValidateMagnet(cells, c, m) <==>
         NoLinkLeaves(cells, c.id, m.port) ||
         TargetKind(cells, cells[FirstOutgoing(cells, c.id, m.port).value].link) == Some(Choice))
  {
    var f := FirstOutgoing(cells, c.id, m.port);
    if f.Some? {
      ValidateMagnetFirstLink(cells, c, m, f.value);
    }
  }
}

=== FILE: registry.dfy ===
/** The node kinds of the dialogue editor, their default ports and fields,
    and the cells (elements and links) that make up an editor graph. */
module Registry {
  import opened Wrappers

  type Id = string

  /** The six `dialogue.*` element types. Lines (`StartingText`, `Text`,
      `Node`) are spoken text; `Choice` is a player option; `Set` assigns a
      variable; `Branch` switches on a variable's value. */
  datatype Kind = StartingText | Text | Node | Choice | Set | Branch

  /** The list `allNodes`, in declaration order. */
  const AllNodes: seq<Kind> := [StartingText, Text, Node, Choice, Set, Branch]

  lemma AllNodesListsEveryKindOnce()
    ensures forall k: Kind :: k in AllNodes
    ensures |AllNodes| == 6
    ensures forall i, j :: 0 <= i < j < |AllNodes| ==> AllNodes[i] != AllNodes[j]
  {
    forall k: Kind
      ensures k in AllNodes
    {
      match k
      case StartingText => assert AllNodes[0] == k;
      case Text => assert AllNodes[1] == k;
      case Node => assert AllNodes[2] == k;
      case Choice => assert AllNodes[3] == k;
      case Set => assert AllNodes[4] == k;
      case Branch => assert AllNodes[5] == k;
    }
  }

  /** The kinds that speak a line of text. */
  predicate IsLine(k: Kind) {
    k == StartingText || k == Text || k == Node
  }

  /** Ports live in two groups; in-port circles are `passive` magnets (links
      may end there), out-port circles are active (links start there). */
  datatype PortGroup = InPorts | OutPorts
  datatype Polarity = Passive | Active

  function PolarityOf(g: PortGroup): (p: Polarity) {
    match g
    case InPorts => Passive
    case OutPorts => Active
  }

  /** The default in-ports of each kind; a StartingText has none. */
  function DefaultInPorts(k: Kind): (ports: seq<string>) {
    if k == StartingText then [] else ["input"]
  }

  /** The default out-ports: one `output` port, except that a Branch starts
      with the single default port `output0`. */
  function DefaultOutPorts(k: Kind): (ports: seq<string>) {
    if k == Branch then ["output0"] else ["output"]
  }

  /** The `unlimitedConnections` attribute of a port circle: only the
      out-ports of the line kinds declare it, listing `dialogue.Choice`. */
  function UnlimitedConnections(k: Kind, g: PortGroup): (r: Option<seq<Kind>>)
    ensures r.Some? <==> g == OutPorts && IsLine(k)
    ensures r.Some? ==> forall t :: t in r.value <==> t == Choice
  {
    if g == OutPorts && IsLine(k) then Some([Choice]) else None
  }

  /** An element cell as it appears in the graph's JSON: its id, type, port
      lists and the attributes the compiler reads (`name`, `actor`, `title`,
      `value`, and a Branch's `values`, whose entries may be `null`). */
  datatype NodeCell = NodeCell(
    id: Id,
    kind: Kind,
    inPorts: seq<string>,
    outPorts: seq<string>,
    name: string,
    actor: Option<string>,
    title: Option<string>,
    value: Option<string>,
    values: seq<Option<string>>)

  /** One end of a link: the cell id and the port name. */
  datatype Endpoint = Endpoint(id: Id, port: string)

  /** A link always has a source port; its target is absent while it dangles. */
  datatype LinkCell = LinkCell(source: Endpoint, target: Option<Endpoint>)

  /** The graph's JSON is a sequence of cells, elements and links mixed. */
  datatype Cell = Element(node: NodeCell) | Link(link: LinkCell)

  /** The element a context-menu entry creates: every field at its declared
      default. */
  function DefaultCell(k: Kind, id: Id): (c: NodeCell)
    ensures c.id == id && c.kind == k
    ensures c.name == "" && c.values == []
    ensures c.actor.Some? <==> k == Text
    ensures c.title.Some? <==> k == Choice
    ensures c.value.Some? <==> k == Set
    ensures c.outPorts == (if k == Branch then ["output0"] else ["output"])
    ensures c.inPorts == (if k == StartingText then [] else ["input"])
    ensures c.actor.Some? ==> c.actor.value == ""
    ensures c.title.Some? ==> c.title.value == ""
    ensures c.value.Some? ==> c.value.value == ""
  {
    NodeCell(
      id, k, DefaultInPorts(k), DefaultOutPorts(k), "",
      if k == Text then Some("") else None,
      if k == Choice then Some("") else None,
      if k == Set then Some("") else None,
      [])
  }

  /** The element with id `id`, as the graph's `getCell` finds it; when ids
      repeat, the latest element wins, as with a keyed lookup table. */
  function FindNode(cells: seq<Cell>, id: Id): (r: Option<NodeCell>)
    ensures r.Some? ==> Element(r.value) in cells && r.value.id == id
    ensures r.None? <==> forall i :: 0 <= i < |cells| && cells[i].Element? ==> cells[i].node.id != id
  {
    if |cells| == 0 then None
    else
      var last := cells[|cells| - 1];
      if last.Element? && last.node.id == id then Some(last.node)
      else FindNode(cells[..|cells| - 1], id)
  }
}

=== FILE: scenarios.dfy ===
/** Small editor sessions worked through end to end: the graphs a user can
    draw and what the compiler makes of them. */
module Scenarios {
  import opened Wrappers
  import opened Registry
  import opened Policy
  import opened Compiler
  import opened CompilerProofs
  import opened Editor
  import opened BranchPorts

  lemma ElementsSnoc(cells: seq<Cell>, x: Cell)
    ensures Elements(cells + [x]) == Elements(cells) + (if x.Element? then [x.node] else [])
  {
    assert (cells + [x])[..|cells|] == cells;
  }

  lemma IndexByIdSnoc(ns: seq<NodeCell>, n: NodeCell)
    ensures IndexById(ns + [n]) == IndexById(ns)[n.id := |ns|]
  {
    assert (ns + [n])[..|ns|] == ns;
  }

  function A(): (c: NodeCell) { DefaultCell(StartingText, "A") }
  function B(): (c: NodeCell) { DefaultCell(Choice, "B").(title := Some("Go left")) }
  function C(): (c: NodeCell) { DefaultCell(Choice, "C").(title := Some("Go right")) }
  function LB(): (l: LinkCell) { LinkCell(Endpoint("A", "output"), Some(Endpoint("B", "input"))) }
  function LC(): (l: LinkCell) { LinkCell(Endpoint("A", "output"), Some(Endpoint("C", "input"))) }
  function TwoChoices(): (cells: seq<Cell>) { [Element(A()), Element(B()), Element(C()), Link(LB()), Link(LC())] }

  lemma TwoChoicesElements()
    ensures Elements(TwoChoices()) == [A(), B(), C()]
  {
    ElementsOfThreeAndTwoLinks(A(), B(), C(), LB(), LC());
  }

  lemma ElementsOfThreeAndTwoLinks(a: NodeCell, b: NodeCell, c: NodeCell, l1: LinkCell, l2: LinkCell)
    ensures Elements([Element(a), Element(b), Element(c), Link(l1), Link(l2)]) == [a, b, c]
  {
    ElementsSnoc([], Element(a));
    assert [] + [Element(a)] == [Element(a)];
    ElementsSnoc([Element(a)], Element(b));
    assert [Element(a)] + [Element(b)] == [Element(a), Element(b)];
    ElementsSnoc([Element(a), Element(b)], Element(c));
    assert [Element(a), Element(b)] + [Element(c)] == [Element(a), Element(b), Element(c)];
    ElementsSnoc([Element(a), Element(b), Element(c)], Link(l1));
    assert [Element(a), Element(b), Element(c)] + [Link(l1)] == [Element(a), Element(b), Element(c), Link(l1)];
    ElementsSnoc([Element(a), Element(b), Element(c), Link(l1)], Link(l2));
    assert [Element(a), Element(b), Element(c), Link(l1)] + [Link(l2)]
      == [Element(a), Element(b), Element(c), Link(l1), Link(l2)];
  }

  lemma TwoChoicesIndex()
    ensures IndexById([A(), B(), C()]) == map["A" := 0, "B" := 1, "C" := 2]
  {
    IndexByIdSnoc([], A());
    IndexByIdSnoc([A()], B());
    IndexByIdSnoc([A(), B()], C());
  }

  lemma NodeFoldSnoc(ns: seq<NodeCell>, byId: map<Id, nat>, i: nat, n: ScriptNode, cells: seq<Cell>, x: Cell)
    requires Indexed(ns, byId) && i < |ns|
    requires n.kind == Branch ==> n.branches.Some?
    ensures NodeFold(ns, byId, i, n, cells + [x]) ==
      if FromNode(byId, x, i) then Step(NodeFold(ns, byId, i, n, cells), ns[i].values, x.link, ResolveTarget(ns, byId, x.link))
      else NodeFold(ns, byId, i, n, cells)
  {
    assert (cells + [x])[..|cells|] == cells;
  }

  const TwoChoicesIndexMap: map<Id, nat> := map["A" := 0, "B" := 1, "C" := 2]

  lemma TwoChoicesFoldA()
    ensures var n := NodeFold([A(), B(), C()], TwoChoicesIndexMap, 0, Emit(A()), TwoChoices());
      n.choices == Some(["B", "C"]) && n.next == Absent
  {
    var x := TwoChoices();
    var ns := [A(), B(), C()];
    var byId := TwoChoicesIndexMap;
    var n0 := Emit(A());
    var p3 := [x[0], x[1], x[2]];
    var p4 := p3 + [x[3]];
    assert x == p4 + [x[4]];
    assert n0.kind == StartingText && n0.choices == None;
    assert B().kind == Choice && B().id == "B" && C().kind == Choice && C().id == "C";
    NodeFoldWithoutLinks(ns, byId, 0, n0, p3);
    assert NodeFold(ns, byId, 0, n0, p3) == n0;
    NodeFoldSnoc(ns, byId, 0, n0, p3, x[3]);
    assert FromNode(byId, x[3], 0);
    assert ResolveTarget(ns, byId, LB()) == Some(B());
    var n1 := Step(n0, ns[0].values, LB(), Some(B()));
    assert n0.choices.GetOr([]) == [];
    assert [] + ["B"] == ["B"];
    assert n1.choices == Some(["B"]) && n1.next == Absent;
    assert NodeFold(ns, byId, 0, n0, p4) == n1;
    NodeFoldSnoc(ns, byId, 0, n0, p4, x[4]);
    assert FromNode(byId, x[4], 0);
    assert ResolveTarget(ns, byId, LC()) == Some(C());
    var n2 := Step(n1, ns[0].values, LC(), Some(C()));
    assert n1.choices.GetOr([]) + ["C"] == ["B", "C"];
    assert n2.choices == Some(["B", "C"]) && n2.next == Absent;
    assert NodeFold(ns, byId, 0, n0, x) == n2;
  }

  lemma TwoChoicesFoldB()
    ensures NodeFold([A(), B(), C()], TwoChoicesIndexMap, 1, Emit(B()), TwoChoices()) == Emit(B())
  {
    NodeFoldWithoutLinks([A(), B(), C()], TwoChoicesIndexMap, 1, Emit(B()), TwoChoices());
  }

  /** A starting line offering two choices compiles to a record listing both
      choices, in link order, and carrying no `next`; the choices keep their
      titles and point nowhere yet. */
  lemma StartingTextWithTwoChoices()
    ensures var r := GameData(TwoChoices());
      && |r.nodes| == 3
      && r.nodes[0].kind == StartingText
      && r.nodes[0].choices == Some(["B", "C"])
      && r.nodes[0].next == Absent
      && r.nodes[1].title == Some("Go left") && r.nodes[1].next == Null
  {
    TwoChoicesElements();
    TwoChoicesIndex();
    GameDataPerNode(TwoChoices(), 0);
    GameDataPerNode(TwoChoices(), 1);
    TwoChoicesFoldA();
    TwoChoicesFoldB();
  }

  function D(): (c: NodeCell) { DefaultCell(Node, "D") }
  function LD(): (l: LinkCell) { LinkCell(Endpoint("A", "output"), Some(Endpoint("D", "input"))) }
  function OneChoice(): (cells: seq<Cell>) { [Element(A()), Element(B()), Element(D()), Link(LB())] }
  const ChoiceThenNodeIndexMap: map<Id, nat> := map["A" := 0, "B" := 1, "D" := 2]

  /** The only link of that graph, cell 3, leaves A's port. */
  lemma ChoiceThenNodeFirstLink()
    ensures FirstOutgoing(OneChoice(), "A", "output") == Some(3)
  {
    var x := OneChoice();
    assert LeavesFrom(x[3], "A", "output");
    assert !LeavesFrom(x[0], "A", "output") && !LeavesFrom(x[1], "A", "output") && !LeavesFrom(x[2], "A", "output");
  }

  /** The first link of that graph ends at the Choice B. */
  lemma ChoiceThenNodeFirstTarget()
    ensures TargetKind(OneChoice(), LB()) == Some(Choice)
  {
    assert FindNode(OneChoice(), "B") == Some(B());
  }

  /** The line's port already has a link, but it ends at a Choice, so the
      port may start another. */
  lemma ChoiceThenNodeMagnet()
    ensures ValidateMagnet(OneChoice(), A(), Magnet(OutPorts, "output"))
  {
    ChoiceThenNodeFirstLink();
    ChoiceThenNodeFirstTarget();
  }

  /** Once the starting line's port links to a Choice, the editor lets the
      same port link on to a plain Node as well. */
  lemma ChoiceThenNodeAdmitted()
    ensures Connect(OneChoice(), A(), Magnet(OutPorts, "output"), D(), Magnet(InPorts, "input"))
      == Some(OneChoice() + [Link(LD())])
  {
    ChoiceThenNodeMagnet();
    assert ValidateConnection(A(), Magnet(OutPorts, "output"), D(), Magnet(InPorts, "input"));
    assert HasPort(A(), Magnet(OutPorts, "output")) && HasPort(D(), Magnet(InPorts, "input"));
    assert LinkBetween(A(), Magnet(OutPorts, "output"), D(), Magnet(InPorts, "input")) == LD();
  }

  lemma ChoiceThenNodeElements()
    ensures Elements(OneChoice() + [Link(LD())]) == [A(), B(), D()]
  {
    assert OneChoice() + [Link(LD())] == [Element(A()), Element(B()), Element(D()), Link(LB()), Link(LD())];
    ElementsOfThreeAndTwoLinks(A(), B(), D(), LB(), LD());
  }

  lemma ChoiceThenNodeIndex()
    ensures IndexById([A(), B(), D()]) == ChoiceThenNodeIndexMap
  {
    IndexByIdSnoc([], A());
    IndexByIdSnoc([A()], B());
    IndexByIdSnoc([A(), B()], D());
  }

  lemma ChoiceThenNodeFold()
    ensures var n := NodeFold([A(), B(), D()], ChoiceThenNodeIndexMap, 0, Emit(A()), OneChoice() + [Link(LD())]);
      n.choices == Some(["B"]) && n.next == To("D")
  {
    var x := OneChoice() + [Link(LD())];
    var ns := [A(), B(), D()];
    var byId := ChoiceThenNodeIndexMap;
    var n0 := Emit(A());
    var p3 := [x[0], x[1], x[2]];
    var p4 := p3 + [x[3]];
    assert x == p4 + [x[4]];
    assert n0.kind == StartingText && n0.choices == None;
    assert B().kind == Choice && B().id == "B" && D().kind == Node && D().id == "D";
    NodeFoldWithoutLinks(ns, byId, 0, n0, p3);
    assert NodeFold(ns, byId, 0, n0, p3) == n0;
    NodeFoldSnoc(ns, byId, 0, n0, p3, x[3]);
    assert FromNode(byId, x[3], 0);
    assert ResolveTarget(ns, byId, LB()) == Some(B());
    var n1 := Step(n0, ns[0].values, LB(), Some(B()));
    assert n0.choices.GetOr([]) == [];
    assert [] + ["B"] == ["B"];
    assert n1.choices == Some(["B"]) && n1.next == Absent;
    assert NodeFold(ns, byId, 0, n0, p4) == n1;
    NodeFoldSnoc(ns, byId, 0, n0, p4, x[4]);
    assert FromNode(byId, x[4], 0);
    assert ResolveTarget(ns, byId, LD()) == Some(D());
    var n2 := Step(n1, ns[0].values, LD(), Some(D()));
    assert n2.choices == Some(["B"]) && n2.next == To("D");
    assert NodeFold(ns, byId, 0, n0, x) == n2;
  }

  /** The graph the editor admits above compiles to a starting record that
      carries both a `choices` list and a `next`. */
  lemma ChoiceThenNodeCompiles()
    ensures var r := GameData(OneChoice() + [Link(LD())]);
      && |r.nodes| == 3
      && r.nodes[0].choices == Some(["B"])
      && r.nodes[0].next == To("D")
  {
    ChoiceThenNodeElements();
    ChoiceThenNodeIndex();
    GameDataPerNode(OneChoice() + [Link(LD())], 0);
    ChoiceThenNodeFold();
  }

  /** A Branch with one added port whose value reads "yes". */
  function Q(): (c: NodeCell) { AddPort(DefaultCell(Branch, "Q")).(values := [Some("yes")]) }
  function E(): (c: NodeCell) { DefaultCell(Node, "E") }
  function LE(): (l: LinkCell) { LinkCell(Endpoint("Q", Q().outPorts[1]), Some(Endpoint("E", "input"))) }
  function YesOnly(): (cells: seq<Cell>) { [Element(Q()), Element(E()), Link(LE())] }
  const YesOnlyIndexMap: map<Id, nat> := map["Q" := 0, "E" := 1]

  lemma QInLockstep()
    ensures PortsInLockstep(Q()) && |Q().outPorts| == 2 && Q().id == "Q" && Q().kind == Branch
  {
    DefaultBranchInLockstep("Q");
  }

  lemma YesOnlyElements()
    ensures Elements(YesOnly()) == [Q(), E()]
  {
    ElementsOfTwoAndLink(Q(), E(), LE());
  }

  lemma ElementsOfTwoAndLink(a: NodeCell, b: NodeCell, l: LinkCell)
    ensures Elements([Element(a), Element(b), Link(l)]) == [a, b]
  {
    ElementsSnoc([], Element(a));
    assert [] + [Element(a)] == [Element(a)];
    ElementsSnoc([Element(a)], Element(b));
    assert [Element(a)] + [Element(b)] == [Element(a), Element(b)];
    ElementsSnoc([Element(a), Element(b)], Link(l));
    assert [Element(a), Element(b)] + [Link(l)] == [Element(a), Element(b), Link(l)];
  }

  lemma YesOnlyIndex()
    ensures IndexById([Q(), E()]) == YesOnlyIndexMap
  {
    QInLockstep();
    IndexByIdSnoc([], Q());
    IndexByIdSnoc([Q()], E());
  }

  /** The link leaves port `output1`, which selects the value "yes". */
  lemma YesOnlyKey()
    ensures BranchKeyFor(Q().values, LE().source.port) == ValueKey(Some("yes"))
  {
    QInLockstep();
    LockstepPortKeys(Q(), 1);
  }

  /** The two element cells leave the Branch's record as emitted. */
  lemma YesOnlyBeforeLink()
    ensures NodeFold([Q(), E()], YesOnlyIndexMap, 0, Emit(Q()), [Element(Q()), Element(E())]) == Emit(Q())
  {
    NodeFoldWithoutLinks([Q(), E()], YesOnlyIndexMap, 0, Emit(Q()), [Element(Q()), Element(E())]);
  }

  lemma YesOnlyFold()
    ensures NodeFold([Q(), E()], YesOnlyIndexMap, 0, Emit(Q()), YesOnly()).branches
      == Some(map[ValueKey(Some("yes")) := Some("E")])
  {
    var x := YesOnly();
    var ns := [Q(), E()];
    var byId := YesOnlyIndexMap;
    var n0 := Emit(Q());
    var p2 := [Element(Q()), Element(E())];
    assert x == p2 + [x[2]];
    YesOnlyBeforeLink();
    NodeFoldSnoc(ns, byId, 0, n0, p2, x[2]);
    assert FromNode(byId, x[2], 0);
    assert ResolveTarget(ns, byId, LE()) == Some(E());
    YesOnlyKey();
    var b0 := InitialBranches([Some("yes")]);
    assert n0.branches == Some(b0);
    assert b0 == map[ValueKey(Some("yes")) := None];
    assert b0[ValueKey(Some("yes")) := Some("E")] == map[ValueKey(Some("yes")) := Some("E")];
  }

  lemma YesOnlyRecord()
    ensures |GameData(YesOnly()).nodes| == 2
    ensures GameData(YesOnly()).nodes[0] == NodeFold([Q(), E()], YesOnlyIndexMap, 0, Emit(Q()), YesOnly())
  {
    YesOnlyElements();
    YesOnlyIndex();
    GameDataPerNode(YesOnly(), 0);
  }

  /** A Branch linked only from its "yes" port compiles to a table holding
      that value alone: no `_default` entry appears unless port 0 is linked. */
  lemma BranchWithoutDefault()
    ensures var r := GameData(YesOnly());
      |r.nodes| == 2 && r.nodes[0].branches == Some(map[ValueKey(Some("yes")) := Some("E")])
  {
    YesOnlyRecord();
    YesOnlyFold();
  }
}

=== FILE: wrappers.dfy ===
/** The optional-value datatype used throughout the model for JavaScript's
    `undefined`/`null` and for lookups that may find nothing. */
module Wrappers {

  datatype Option<+T> = None | Some(value: T) {

    /** JavaScript's `x || default` on an optional value: the held value if
        there is one, otherwise the fallback. */
    function GetOr(default: T): (r: T) {
      match this
      case Some(v) => v
      case None => default
    }
  }
}
